=== FILE: README.md ===
# mod_openai_asr — a Dafny model of the speech-recognition core

`mod_openai_asr` is a FreeSWITCH speech-recognition module. It sends the
caller's speech to an OpenAI-compatible transcription service. The host
feeds it raw 16-bit linear PCM frames. A voice-activity detector (VAD)
decides when speech starts and stops. Frames heard while nobody talks are
kept in a small *pre-roll* store, so that the audio just before the detected
onset is not lost. Speech is queued for a per-session worker thread. The
worker collects it into an *utterance buffer* and, once the speaker has been
silent for a configured number of seconds (or the buffer is full), sends it
to the service. Every transcript it gets back is queued for the host, which
polls and fetches results.

This project models that core as pure functions over immutable records and
proves properties about them.

| file | module | what it models |
|---|---|---|
| `common.dfy` | `Common` | optional values, the host status codes, a value-or-status result |
| `buffers.dfy` | `Buffers` | the host's fixed-capacity byte buffer, its bounded FIFO queue, concatenation of chunks |
| `config.dfy` | `Config` | the compile-time limits, the configuration settings and their defaults |
| `preroll.dfy` | `PreRoll` | the pre-roll store and the recovery chunk built at speech onset |
| `preroll_proofs.dfy` | `PreRollProofs` | what the recovery chunk contains after a run of whole frames |
| `session.dfy` | `Sessions` | the session record and its invariant; open, pause, resume, text options |
| `feed.dfy` | `VadGate` | the per-frame entry point: gate, size latch, pre-roll storage, queueing by VAD verdict |
| `feed_proofs.dfy` | `FeedProofs` | per-verdict behaviour of a frame and the end-to-end onset property |
| `results.dfy` | `Results` | classification of a service reply, the results counter, polling and fetching |
| `assembler.dfy` | `Assembler` | one pass of the worker loop: drain, deadline, flush |
| `assembler_proofs.dfy` | `AssemblerProofs` | properties of the worker pass |

Things outside the module's own code are parameters of the model:

- the VAD's verdict for a frame;
- whether an allocation succeeded;
- whether the utterance could be written to an audio file;
- the service's reply to a request naming a given model;
- the clock, in seconds: a pass reads it once when it arms a deadline and
  again when it compares the deadline with the time, and the two readings
  are separate parameters.

The compile-time constants are fields of a `Limits` record, with only the
relations the code relies on: the store size (`VAD_STORE_FRAMES`), the
recovery window (`VAD_RECOVERY_FRAMES`), the queue size (`QUEUE_SIZE`) and the
utterance floor (`DEF_SENTENCE_MAX_TIME`). They are not fixed to values,
because the header that defines them is not part of this model.

The host library's buffer write is modelled by its documented behaviour. If
the bytes fit, they are appended and the new live length is returned.
Otherwise nothing is written and 0 is returned. Emptying a buffer resets only
its live length, so stale bytes stay in place. Several properties below
follow from exactly that:

- **Stale bytes.** The pre-roll recovery can splice in audio from an earlier
  fill (`PreRollProofs.StaleSplice`).
- **Overflow detection.** The worker compares the write's return value with
  the utterance capacity. It therefore detects an overflow only when a write
  leaves the buffer exactly full.
- **Oversized chunks.** A chunk too big for the space left is freed and
  lost, with no overflow flagged, yet it is still counted as buffered
  (`Assembler.OversizedChunkIsDropped`). A chunk that does not fit does
  not end the utterance; only one that fills the buffer exactly does
  (`Assembler.ExactFillOverflows`).
- **Stuck deadline.** A deadline can be armed after only oversized chunks.
  If no chunk that fits arrives before it, the deadline finds the buffer
  empty, so nothing is sent and the deadline is not reset
  (`AssemblerProofs.NoFileNoReset`). The next speech that fits is then sent
  in the pass that drains it.

## Model

| member | source | states |
|---|---|---|
| Buffers.Write | sources/mod_openai_asr.c:90 | a write that fits appends the bytes and returns the new live length, leaving the bytes past it alone; one that does not fit changes nothing and returns 0 |
| Buffers.TryPush | sources/mod_openai_asr.c:133 | a push succeeds exactly when the queue has room, and then appends at the tail; otherwise the queue is unchanged |
| Buffers.TryPop | sources/mod_openai_asr.c:443 | a pop fails exactly on an empty queue; otherwise it yields the head and leaves the rest in order |
| Buffers.Create | sources/mod_openai_asr.c:326 | a buffer allocated from a pool has the requested capacity, no live bytes, and every physical byte zero |
| Buffers.Enqueue | sources/mod_openai_asr.c:419-421 | a push whose failure is ignored appends the item when the queue has room and otherwise leaves the queue as it was |
| Buffers.Zero | sources/mod_openai_asr.c:336 | emptying a buffer leaves no live bytes and keeps every physical byte |
| Buffers.FlattenAppend | sources/mod_openai_asr.c:83-97 | concatenating two runs of chunks concatenates their bytes |
| Buffers.FlattenSlice | sources/mod_openai_asr.c:409 | in a run of whole frames, frames i to j are exactly bytes i·n to j·n |
| Config.FinishSettings | sources/mod_openai_asr.c:578-588 | loading fails with a general error exactly when the API URL or key is missing; the encoding defaults to "wav"; the utterance length is the larger of the setting and the floor |
| Sessions.Open | sources/mod_openai_asr.c:197-254 | only "L16" opens (anything else is FALSE, a failed allocation GENERR); a new session is valid, mono, at the given rate, with no frame length, no pre-roll, empty queues, no results, no language, model or session id set, and not paused |
| Sessions.Pause | sources/mod_openai_asr.c:468-478 | afterwards the session is paused and nothing else changed |
| Sessions.Resume | sources/mod_openai_asr.c:480-490 | afterwards the session is not paused and nothing else changed |
| Sessions.PauseResumeRoundTrip | sources/mod_openai_asr.c:468-490 | resuming undoes a pause, pausing undoes a resume, and each is idempotent |
| Sessions.Lower | sources/mod_openai_asr.c:497-501 | letter case is folded as in the "C" locale: an upper-case ASCII letter becomes the matching lower-case one, and every other character is kept |
| Sessions.SameKeyIsEquivalence | sources/mod_openai_asr.c:497-501 | matching option keys without regard to case is reflexive, symmetric and transitive |
| Sessions.TextParam | sources/mod_openai_asr.c:492-505 | "language", "model" and "session_uuid", in any letter case, set the matching option to a present value; an absent value or any other key changes nothing |
| Sessions.TextParamIgnoresCase | sources/mod_openai_asr.c:497-503 | two keys that differ only in letter case have the same effect |
| PreRoll.Append | sources/mod_openai_asr.c:340-341 | storing into a store with room appends the frame to the live bytes, counts it, and keeps the store's invariant and the bytes past it |
| PreRoll.Restart | sources/mod_openai_asr.c:335-339 | a full store is emptied, leaves its first cycle, and keeps its physical bytes |
| PreRoll.Store | sources/mod_openai_asr.c:334-342 | a frame goes after the live bytes, or at the start of an emptied store when the store was full; one to `storeFrames` frames are then stored |
| PreRoll.RecoveryFrames | sources/mod_openai_asr.c:380 | the window is R frames unless fewer are stored and the store is still in its first cycle, then it is the number stored |
| PreRoll.RecoveryLen | sources/mod_openai_asr.c:381 | the window in bytes never exceeds the store's capacity |
| PreRoll.RecoveryChunk | sources/mod_openai_asr.c:379-410 | there is a chunk exactly when live bytes exist; it is the window's last bytes then the frame, and when fewer bytes are live the missing head is taken from the physical end of the store |
| PreRoll.Drop | sources/mod_openai_asr.c:401-402 | after a recovery the store is empty, with its bytes and cycle flag kept |
| PreRoll.StoreAll | sources/mod_openai_asr.c:332-342 | storing a run of frames keeps the store valid and leaves at least one frame stored |
| PreRollProofs.StoreAllShape | sources/mod_openai_asr.c:333-342 | after k whole frames into an empty store, the live bytes are the frames stored since the last emptying, in order, and once it has been full the bytes after them are the rest of the previous fill |
| PreRollProofs.OnsetRecovery | sources/mod_openai_asr.c:371-418 | after k whole frames, the last being the onset, the recovery chunk is the last min(k, R) frames in the order heard, then the onset frame, in the first cycle and whenever k ≥ R |
| PreRollProofs.TriggerFrameTwice | sources/mod_openai_asr.c:395 | the recovery chunk ends with the onset frame twice, since it was stored before the onset was reported and is appended again |
| PreRollProofs.StaleSplice | sources/mod_openai_asr.c:384-394 | in a later cycle, fewer than R frames make the chunk start with the physical end of the store as it was before them, audio from an earlier fill |
| PreRollProofs.OnsetLinear | sources/mod_openai_asr.c:403-410 | with at least the window live, the chunk is the last window frames then the onset frame |
| PreRollProofs.OnsetWrapped | sources/mod_openai_asr.c:384-395 | after wrapping with fewer than R frames live, the chunk's head is the end of the previous fill, so it is still the last R frames heard |
| VadGate.Latch | sources/mod_openai_asr.c:319-330 | the first frame fixes the frame length, the utterance size (rate × maximum seconds) and the store size (frame × store frames, or 0 when allocation failed); later frames change nothing |
| VadGate.StoreStep | sources/mod_openai_asr.c:332-343 | the frame goes into the pre-roll exactly when there is one, nobody is talking, and it is no longer than a frame |
| VadGate.Observe | sources/mod_openai_asr.c:345-366 | onset, talking and stop-talking become the recorded state; none and error leave it |
| VadGate.SpeechVerdicts | sources/mod_openai_asr.c:346-368 | onset and talking carry speech and are recorded as speech; stop-talking carries none and ends it; none and error carry none and leave the recorded state |
| VadGate.Emit | sources/mod_openai_asr.c:371-423 | at onset with frames stored, the recovery chunk exists and is queued, and the store is emptied with its bytes and cycle flag kept; otherwise the frame itself is queued and the store is untouched; only the speech queue and the pre-roll change |
| VadGate.Detect | sources/mod_openai_asr.c:332-423 | with a pre-roll: the verdict is recorded (none and error keep the state); for every verdict but onset the store changes exactly as the store step says; silence queues nothing and talking queues the frame; onset queues the recovery chunk of the store after the frame was stored and empties it, or the frame alone when that store is empty |
| VadGate.Process | sources/mod_openai_asr.c:332-423 | without a pre-roll the frame is queued as it is and the store and VAD state are untouched; with one, the verdict is recorded, silence queues nothing and talking queues the frame |
| VadGate.Feed | sources/mod_openai_asr.c:299-426 | a closed, destroyed or aborted session answers BREAK, a paused one SUCCESS, an empty frame BREAK, all unchanged; an admitted frame answers SUCCESS; sizes are latched once; the text queue and results never change |
| FeedProofs.FeedGate | sources/mod_openai_asr.c:306-317 | only an admitted frame (live session, not paused, not empty) changes the session; a frame is answered SUCCESS exactly when it is admitted or the live session is paused |
| FeedProofs.FeedWithoutPreRoll | sources/mod_openai_asr.c:367-369 | without a pre-roll every admitted frame is queued as it is |
| FeedProofs.FeedSilent | sources/mod_openai_asr.c:359-362 | with a pre-roll, none, stop-talking and error queue nothing; stop-talking is recorded |
| FeedProofs.FeedTalking | sources/mod_openai_asr.c:363-366 | while talking, the frame is queued |
| FeedProofs.FeedStores | sources/mod_openai_asr.c:332-343 | for any verdict but onset, the frame is stored exactly when the store condition holds, and the pre-roll is otherwise untouched |
| FeedProofs.FeedOnset | sources/mod_openai_asr.c:346-418 | at onset with frames stored, the recovery chunk is queued and the store emptied; with none stored, the frame is queued alone |
| FeedProofs.FeedSilence | sources/mod_openai_asr.c:332-343 | feeding silent frames keeps the session valid |
| FeedProofs.SilenceFillsPreRoll | sources/mod_openai_asr.c:332-343 | silent whole frames go, in order, into the pre-roll and change nothing else |
| FeedProofs.OnsetAfterListening | sources/mod_openai_asr.c:332-418 | on a listening session, onset stores the frame and queues the recovery chunk of the resulting store |
| FeedProofs.OnsetQueuesRecentAudio | sources/mod_openai_asr.c:299-426 | after k − 1 silent frames, onset on the k-th queues the last min(k, R) frames heard, then the onset frame again |
| Results.Transcript | sources/mod_openai_asr.c:124-143 | a reply carries a transcript exactly when it parsed, has no "error" member and has a "text" member, and the transcript is that text; an "error" member wins over "text" |
| Results.Uncount | sources/mod_openai_asr.c:452 | the counter goes down by exactly one, and stays put only at zero |
| Results.Publish | sources/mod_openai_asr.c:122-157 | a reply with a transcript is appended to the text queue and counted, unless the queue is full; every other reply changes nothing |
| Results.NoTranscriptNoResult | sources/mod_openai_asr.c:122-157 | failed requests, empty or unparsable bodies, error replies and replies without "text" leave the session untouched |
| Results.CheckResults | sources/mod_openai_asr.c:428-434 | polling answers SUCCESS exactly when the results counter is positive, and FALSE otherwise |
| Results.GetResults | sources/mod_openai_asr.c:436-458 | SUCCESS exactly when a string is returned; an empty queue answers FALSE and changes nothing; otherwise the head is popped and the counter decremented but never below zero, and the head returned when non-empty; the session invariant and the counter's agreement with the queue are kept |
| Results.CheckMeansQueued | sources/mod_openai_asr.c:428-458 | polling says SUCCESS exactly when the text queue holds an entry, and FALSE exactly when a fetch would change nothing |
| Results.FetchN | sources/mod_openai_asr.c:443-454 | n fetches yield the first n entries in order and leave the rest queued and counted |
| Results.PublishAll | sources/mod_openai_asr.c:133-136 | publishing a run of transcripts keeps the pending counter equal to the queue length |
| Results.PublishAllAppends | sources/mod_openai_asr.c:133-136 | while the queue has room, publishing appends every transcript in order and counts each |
| Results.FifoDelivery | sources/mod_openai_asr.c:133-136 | transcripts come out in the order the replies arrived, after those already queued, and nothing is then pending |
| Assembler.Initial | sources/mod_openai_asr.c:44-47 | the worker starts with no latched size, no chunks and no deadline |
| Assembler.NonEmpty | sources/mod_openai_asr.c:89 | the number of non-empty chunks is at most the number of chunks, and equals it when none is empty |
| Assembler.Drain | sources/mod_openai_asr.c:82-97 | the drain keeps the buffer's bytes and appends to them; what stays queued is a suffix; an overflow leaves the buffer full and leaves at least one consumed chunk uncounted; anything else empties the queue |
| Assembler.ExactFillOverflows | sources/mod_openai_asr.c:89-94 | a non-empty chunk that fills the buffer exactly is written, flags the overflow, is not counted, and stops the drain with the rest still queued |
| Assembler.DrainStopsAtExactFill | sources/mod_openai_asr.c:83-97 | wherever it sits in the queue, the first chunk that leaves the buffer exactly full ends the drain: the chunks before it are written and the non-empty ones counted, it is written but not counted, and every chunk after it stays queued |
| Assembler.DrainAppends | sources/mod_openai_asr.c:89-95 | a chunk that fits with room to spare is appended and counted, and the drain goes on |
| Assembler.DrainConserves | sources/mod_openai_asr.c:83-97 | when everything queued fits with room to spare, the buffer ends with all of it in order and every non-empty chunk is counted |
| Assembler.OversizedChunkIsDropped | sources/mod_openai_asr.c:89-96 | a chunk too big for the space left is counted but lost, with no overflow, and the drain goes on |
| Assembler.Arm | sources/mod_openai_asr.c:99-106 | an overflow makes the deadline due at once; an armed one is kept; otherwise buffered speech after stop-talking arms it threshold seconds ahead |
| Assembler.RequestModel | sources/mod_openai_asr.c:120 | the request names the session's model when one is set, and the configured one exactly when none is |
| AssemblerProofs.RequestNamesModelOption | sources/mod_openai_asr.c:120 | a freshly opened session's requests name the configured model; after the `model` option is set, in any letter case, they name that value; setting any other option does not change the model named |
| Assembler.Tick | sources/mod_openai_asr.c:63-165 | shutdown or destroy ends the worker; the first pass latches the utterance buffer, and a failed allocation ends it; a later pass leaves queued exactly the chunks the drain did not take, and sends exactly when the deadline after arming is non-zero and not after the second clock reading, the drained buffer is non-empty and the file was written; a send resets the worker and publishes the service's reply to a request naming the model the session asks for, and otherwise the drained buffer, count and deadline carry over |
| AssemblerProofs.DeadlineNeverPostponed | sources/mod_openai_asr.c:99-106 | an armed deadline is never moved later; only an overflow replaces it, by one already due |
| AssemblerProofs.OverflowFlushesAtOnce | sources/mod_openai_asr.c:90-108 | an overflow sends the utterance in the same pass and empties the buffer |
| AssemblerProofs.ExactFillFlushes | sources/mod_openai_asr.c:89-108 | queued speech whose first chunk fills the buffer exactly is sent in the same pass, whatever the deadline, and the rest stays queued |
| AssemblerProofs.NoFileNoReset | sources/mod_openai_asr.c:114-117 | with an empty buffer or no file written, nothing is sent and the drained buffer, the count and the deadline after arming carry over |
| AssemblerProofs.SpeechReachesBuffer | sources/mod_openai_asr.c:82-106 | with no deadline and no stop-talking, a pass moves all queued speech, in order, into the buffer and sends nothing |
| AssemblerProofs.NoSecondFlush | sources/mod_openai_asr.c:159-163 | after a send, a pass with no new speech sends nothing and changes nothing |
| AssemblerProofs.StopArmsDeadline | sources/mod_openai_asr.c:102-108 | the pass that buffers speech after stop-talking arms the deadline threshold seconds after the arming reading, and sends nothing when the checking reading is still before it |
| AssemblerProofs.DueDeadlineFlushes | sources/mod_openai_asr.c:108-164 | a pass whose checking reading is at or after the deadline, with no new speech, sends the utterance, publishes the reply and resets the worker |
| AssemblerProofs.SentenceEndsAfterThreshold | sources/mod_openai_asr.c:99-165 | after stop-talking, the pass that buffers the speech sends nothing if checked before the deadline, and a later pass with no new speech checked at least threshold seconds after the arming reading sends it and resets the worker |
| AssemblerProofs.FlattenNonEmpty | sources/mod_openai_asr.c:89 | chunks that are not all empty carry at least one byte |

## Left out

- The worker's setup (sources/mod_openai_asr.c:54-61): if its memory pool or its reply buffer cannot be created, the thread exits before its loop and never drains the speech queue; the model starts at the loop.
- Threads, locks, reference counts, `asr_close` and module shutdown: the model is one pass of the worker and one call at a time.
- The HTTP request, the temporary audio file and its removal, and the temp directory: whether the file was written and what the service replied are parameters.
- JSON parsing: a reply is already classified. A "text" member that is not a string would make the code take the length of a NULL pointer; this is not modelled.
- The VAD algorithm, its reset on stop-talking, its parameters, the start-talking event and all logging: the verdict is a parameter.
- Reading the XML configuration file: the parsed settings are a parameter, and only the checks and defaults applied after parsing are modelled.
- The shutdown check in the middle of a drain (sources/mod_openai_asr.c:85-88): a shutdown is observed at the start of the pass.
- The parsed JSON object is not freed on each reply, only at exit; memory is not modelled.
- `asr_start_input_timers`, `asr_numeric_param`, `asr_float_param` and the grammar calls do nothing and are not modelled.
- Allocating a transcript copy or a queued speech chunk is assumed to succeed: the copy made when a frame is queued (sources/mod_openai_asr.c:421) and the recovery chunk (sources/mod_openai_asr.c:388-391 and :404-407) are always queued when the queue has room.
- Integer widths: the products frame × store frames and rate × seconds, the `uint32_t` chunk count and the `int` offset of the recovery are unbounded here.
- Results.PublishAll: stated only as keeping the counter in step with the queue; the contents are in Results.PublishAllAppends.
- FeedProofs.FeedSilence: stated only as keeping the invariant; the contents are in FeedProofs.SilenceFillsPreRoll.

=== FILE: assembler.dfy ===
/** One pass of the transcription worker: it learns the utterance buffer size
    from the session, drains queued speech into the utterance buffer, arms
    the end-of-sentence deadline, and when the deadline is due hands the
    utterance to the service and publishes the reply. File writing and the
    HTTP request are oracles: whether the audio file could be written and
    what the service replied are parameters. */
module Assembler {
  import opened Common
  import opened Buffers
  import opened Config
  import opened Sessions
  import opened Results

  /** The worker's own state: the utterance capacity it has latched (0 until
      the first frame fixed it), the utterance buffer, the number of chunks
      written into it since the last flush, and the deadline (0 when none is
      armed; a time in seconds otherwise). */
  datatype Worker = Worker(chunkCap: nat, buf: ByteBuffer, schunks: nat, deadline: int)

  predicate WorkerValid(w: Worker) {
    w.buf.Valid() && (w.chunkCap > 0 ==> w.buf.Capacity() == w.chunkCap)
  }

  /** The worker as it starts: nothing latched, no buffer, nothing armed. */
  function Initial(): (w: Worker)
    ensures WorkerValid(w) && w.chunkCap == 0 && w.schunks == 0 && w.deadline == 0
  {
    Worker(0, Create(0), 0, 0)
  }

  /** The outcome of draining the speech queue. `rest` is what stays queued. */
  datatype Drained = Drained(buf: ByteBuffer, schunks: nat, overflow: bool, rest: seq<Chunk>)

  /** The number of non-empty chunks. */
  function NonEmpty(items: seq<Chunk>): (n: nat)
    ensures n <= |items|
    ensures (forall i :: 0 <= i < |items| ==> |items[i]| > 0) ==> n == |items|
  {
    if |items| == 0 then 0 else (if |items[0]| > 0 then 1 else 0) + NonEmpty(items[1..])
  }

  /** Pops chunks oldest first and writes each non-empty one into the
      utterance buffer of capacity `cap`. A write that leaves the buffer full
      stops the drain as an overflow; the chunk it wrote is not counted. A
      chunk too big for the space left is not written (the write reports 0)
      but is counted all the same, and the drain goes on. */
  function Drain(b: ByteBuffer, cap: nat, n: nat, items: seq<Chunk>): (d: Drained)
    requires cap > 0 && b.Valid() && b.Capacity() == cap
    ensures d.buf.Valid() && d.buf.Capacity() == cap
    ensures |d.rest| <= |items| && d.rest == items[|items| - |d.rest|..]
    ensures d.overflow ==> d.buf.used == cap
    ensures !d.overflow ==> d.rest == []
    ensures n <= d.schunks <= n + |items| - |d.rest|
    ensures d.overflow ==> d.schunks + |d.rest| < n + |items|
    ensures b.used <= d.buf.used && d.buf.Content()[..b.used] == b.Content()
    decreases |items|
  {
    if |items| == 0 then Drained(b, n, false, [])
    else if |items[0]| == 0 then Drain(b, cap, n, items[1..])
    else
      var (b1, r) := Write(b, items[0]);
      if r >= cap then Drained(b1, n, true, items[1..])
      else
        var d := Drain(b1, cap, n + 1, items[1..]);
        PrefixOfPrefix(d.buf.Content(), b1.used, b.used);
        d
  }

  /** Cutting a sequence short in two steps is cutting it once. */
  lemma PrefixOfPrefix<T>(x: seq<T>, i: nat, j: nat)
    requires j <= i <= |x|
    ensures x[..j] == x[..i][..j]
  { }

  /** The bytes of a run of chunks are its first chunk's, then the rest's. */
  lemma FlattenHead(items: seq<Chunk>)
    requires |items| > 0
    ensures Flatten(items) == items[0] + Flatten(items[1..])
  {
    var x, rest := items[0], items[1..];
    assert items == [x] + rest;
    FlattenAppend([x], rest);
    FlattenOne(x);
  }

  /** A chunk that fits without filling the buffer is appended and counted. */
  lemma DrainAppends(b: ByteBuffer, cap: nat, n: nat, items: seq<Chunk>)
    requires cap > 0 && b.Valid() && b.Capacity() == cap
    requires |items| > 0 && |items[0]| > 0 && b.used + |items[0]| < cap
    ensures var b1 := Write(b, items[0]).0;
            && b1.Valid() && b1.Capacity() == cap
            && b1.Content() == b.Content() + items[0] && b1.used == b.used + |items[0]|
            && Drain(b, cap, n, items) == Drain(b1, cap, n + 1, items[1..])
    ensures NonEmpty(items) == 1 + NonEmpty(items[1..])
  {
  }

  /** The drain moved every queued chunk, in order, into the buffer and
      counted every non-empty one. */
  ghost predicate Conserved(b: ByteBuffer, cap: nat, n: nat, items: seq<Chunk>)
    requires cap > 0 && b.Valid() && b.Capacity() == cap
  {
    var d := Drain(b, cap, n, items);
    && !d.overflow && d.rest == []
    && d.buf.Content() == b.Content() + Flatten(items)
    && d.schunks == n + NonEmpty(items)
  }

  lemma SkipStep(b: ByteBuffer, cap: nat, n: nat, items: seq<Chunk>)
    requires cap > 0 && b.Valid() && b.Capacity() == cap
    requires |items| > 0 && |items[0]| == 0
    requires Conserved(b, cap, n, items[1..])
    ensures Conserved(b, cap, n, items)
  {
    DrainSkips(b, cap, n, items);
    FlattenSkips(items);
  }

  lemma FlattenSkips(items: seq<Chunk>)
    requires |items| > 0 && |items[0]| == 0
    ensures Flatten(items) == Flatten(items[1..])
  {
    FlattenHead(items);
    assert items[0] + Flatten(items[1..]) == Flatten(items[1..]);
  }

  /** An empty chunk is popped and neither written nor counted. */
  lemma DrainSkips(b: ByteBuffer, cap: nat, n: nat, items: seq<Chunk>)
    requires cap > 0 && b.Valid() && b.Capacity() == cap
    requires |items| > 0 && |items[0]| == 0
    ensures Drain(b, cap, n, items) == Drain(b, cap, n, items[1..])
    ensures NonEmpty(items) == NonEmpty(items[1..])
  {
  }

  lemma AppendStep(b: ByteBuffer, cap: nat, n: nat, items: seq<Chunk>)
    requires cap > 0 && b.Valid() && b.Capacity() == cap
    requires |items| > 0 && |items[0]| > 0 && b.used + |items[0]| < cap
    requires Conserved(Write(b, items[0]).0, cap, n + 1, items[1..])
    ensures Conserved(b, cap, n, items)
  {
    DrainAppends(b, cap, n, items);
    FlattenHead(items);
    ConcatAssoc(b.Content(), items[0], Flatten(items[1..]));
  }

  /** Regrouping a concatenation, stated apart so that the step above
      stays a chain of lemma calls the solver can match directly. */
  lemma ConcatAssoc(a: seq<byte>, x: seq<byte>, r: seq<byte>)
    ensures (a + x) + r == a + (x + r)
  {
  }

  /** When everything queued fits with room to spare, the drain moves all of
      it, in order, into the utterance buffer and counts every non-empty
      chunk. */
  lemma {:induction false} DrainConserves(b: ByteBuffer, cap: nat, n: nat, items: seq<Chunk>)
    requires cap > 0 && b.Valid() && b.Capacity() == cap
    requires b.used + |Flatten(items)| < cap
    ensures Conserved(b, cap, n, items)
    decreases |items|
  {
    if |items| > 0 {
      var x, rest := items[0], items[1..];
      assert |Flatten(items)| == |x| + |Flatten(rest)| by {
        FlattenHead(items);
      }
      if |x| == 0 {
        DrainConserves(b, cap, n, rest);
        SkipStep(b, cap, n, items);
      } else {
        var b1 := Write(b, x).0;
        assert b1.used == b.used + |x| && b1.Valid() && b1.Capacity() == cap;
        DrainConserves(b1, cap, n + 1, rest);
        AppendStep(b, cap, n, items);
      }
    }
  }

  /** A chunk that fills the buffer exactly is the overflow: its bytes stay
      written, it is not counted, and the drain stops right after it. */
  lemma ExactFillOverflows(b: ByteBuffer, cap: nat, n: nat, x: Chunk, rest: seq<Chunk>)
    requires cap > 0 && b.Valid() && b.Capacity() == cap
    requires |x| > 0 && b.used + |x| == cap
    ensures var d := Drain(b, cap, n, [x] + rest);
            && d.overflow && d.schunks == n && d.rest == rest
            && d.buf.used == cap && d.buf.Content() == b.Content() + x
  {
    assert ([x] + rest)[0] == x && ([x] + rest)[1..] == rest;
  }

  /** The drain stops at `x`, behind the chunks `pre`: they are written and
      the non-empty ones counted, `x` is written but not counted, and `post`
      stays queued. */
  ghost predicate StopsAt(b: ByteBuffer, cap: nat, n: nat, pre: seq<Chunk>, x: Chunk, post: seq<Chunk>, items: seq<Chunk>)
    requires cap > 0 && b.Valid() && b.Capacity() == cap
  {
    var d := Drain(b, cap, n, items);
    && d.overflow && d.rest == post && d.schunks == n + NonEmpty(pre)
    && d.buf.Content() == b.Content() + Flatten(pre) + x
  }

  lemma StopSkipStep(b: ByteBuffer, cap: nat, n: nat, pre: seq<Chunk>, x: Chunk, post: seq<Chunk>, items: seq<Chunk>)
    requires cap > 0 && b.Valid() && b.Capacity() == cap
    requires |pre| > 0 && |pre[0]| == 0 && |items| > 0 && items[0] == pre[0]
    requires StopsAt(b, cap, n, pre[1..], x, post, items[1..])
    ensures StopsAt(b, cap, n, pre, x, post, items)
  {
    DrainSkips(b, cap, n, items);
    FlattenHead(pre);
    assert Flatten(pre) == Flatten(pre[1..]) by { assert pre[0] == []; }
    assert NonEmpty(pre) == NonEmpty(pre[1..]);
  }

  lemma StopAppendStep(b: ByteBuffer, cap: nat, n: nat, pre: seq<Chunk>, x: Chunk, post: seq<Chunk>, items: seq<Chunk>)
    requires cap > 0 && b.Valid() && b.Capacity() == cap
    requires |pre| > 0 && |pre[0]| > 0 && |items| > 0 && items[0] == pre[0] && b.used + |pre[0]| < cap
    requires StopsAt(Write(b, pre[0]).0, cap, n + 1, pre[1..], x, post, items[1..])
    ensures StopsAt(b, cap, n, pre, x, post, items)
  {
    DrainAppends(b, cap, n, items);
    DrainAppends(b, cap, n, pre);
    FlattenHead(pre);
    ConcatAssoc(b.Content(), pre[0], Flatten(pre[1..]));
  }

  /** Wherever it sits in the queue, the first chunk that leaves the buffer
      exactly full ends the drain: the chunks before it are written and the
      non-empty ones counted, it is written but not counted, and every chunk
      after it stays queued. */
  lemma {:induction false} DrainStopsAtExactFill(b: ByteBuffer, cap: nat, n: nat, pre: seq<Chunk>, x: Chunk,
                                                 post: seq<Chunk>, items: seq<Chunk>)
    requires cap > 0 && b.Valid() && b.Capacity() == cap
    requires |x| > 0 && b.used + |Flatten(pre)| + |x| == cap
    requires items == pre + [x] + post
    ensures var d := Drain(b, cap, n, items);
            && d.overflow && d.rest == post && d.schunks == n + NonEmpty(pre)
            && d.buf.Content() == b.Content() + Flatten(pre) + x
    decreases |pre|
  {
    if |pre| == 0 {
      assert items == [x] + post;
      ExactFillOverflows(b, cap, n, x, post);
    } else {
      FlattenHead(pre);
      assert items[0] == pre[0] && items[1..] == pre[1..] + [x] + post;
      if |pre[0]| == 0 {
        DrainStopsAtExactFill(b, cap, n, pre[1..], x, post, items[1..]);
        StopSkipStep(b, cap, n, pre, x, post, items);
      } else {
        var b1 := Write(b, pre[0]).0;
        DrainStopsAtExactFill(b1, cap, n + 1, pre[1..], x, post, items[1..]);
        StopAppendStep(b, cap, n, pre, x, post, items);
      }
    }
  }

  /** A chunk too big for the space left is lost without an overflow: the
      buffer is unchanged, the chunk is counted, and the drain carries on
      with the next one. */
  lemma OversizedChunkIsDropped(b: ByteBuffer, cap: nat, n: nat, x: Chunk, rest: seq<Chunk>)
    requires cap > 0 && b.Valid() && b.Capacity() == cap
    requires b.used + |x| > cap
    ensures Drain(b, cap, n, [x] + rest) == Drain(b, cap, n + 1, rest)
  {
    assert ([x] + rest)[1..] == rest;
  }

  /** The deadline after a drain: an overflow makes it due at once (time 1,
      long past); otherwise a deadline already armed is kept as it is, and
      none is armed unless chunks are buffered and the speaker has
      stopped, in which case it is `threshold` seconds from now. */
  function Arm(overflow: bool, schunks: nat, vad: VadState, deadline: int, threshold: int, now: int): (dl: int)
    ensures overflow ==> dl == 1
    ensures !overflow && deadline != 0 ==> dl == deadline
    ensures !overflow && deadline == 0 ==>
              dl == (if schunks > 0 && vad == StopTalking then threshold + now else 0)
  {
    var dl := if overflow then 1 else deadline;
    if schunks > 0 && vad == StopTalking && dl == 0 then threshold + now else dl
  }

  /** The model named in the request: the session's own, else the
      configured one. */
  function RequestModel(g: Globals, s: Session): (m: Option<string>)
    ensures m == s.model || m == g.model
    ensures s.model.Some? ==> m == s.model
    ensures s.model.None? ==> m == g.model
  {
    if s.model.Some? then s.model else g.model
  }

  /** The oracles consulted during one pass: whether the utterance buffer
      could be created, whether the utterance could be written to an audio
      file, and the service's reply to a request naming a given model. */
  datatype Io = Io(bufferCreated: bool, fileWritten: bool, reply: Option<string> -> Response)

  /** A pass either ends the worker or leaves it running; `flushed` says
      whether an utterance was sent. */
  datatype Step = Exit | Running(session: Session, worker: Worker, flushed: bool)

  /** What a pass over a latched worker drains from the speech queue. */
  function PassDrain(s: Session, w: Worker): (d: Drained)
    requires WorkerValid(w) && w.chunkCap > 0
    ensures d.buf.Valid() && d.buf.Capacity() == w.chunkCap
  {
    Drain(w.buf, w.chunkCap, w.schunks, s.audio.items)
  }

  /** The deadline a pass over a latched worker arrives at after draining,
      with the clock read at `armTime` if it arms one. */
  function PassDeadline(g: Globals, s: Session, w: Worker, armTime: int): int
    requires WorkerValid(w) && w.chunkCap > 0
  {
    var d := PassDrain(s, w);
    Arm(d.overflow, d.schunks, s.vadState, w.deadline, g.sentenceThresholdSec, armTime)
  }

  /** One pass of the worker loop. The clock (seconds) is read twice: at
      `armTime` when a deadline is armed and at `checkTime` when it is
      compared with the deadline. */
  function Tick(lim: Limits, g: Globals, shutdown: bool, s: Session, w: Worker, armTime: int, checkTime: int, io: Io): (r: Step)
    requires Valid(lim, s) && WorkerValid(w)
    ensures shutdown || s.destroyed ==> r == Exit
    ensures !shutdown && !s.destroyed && w.chunkCap == 0 ==>
              if s.chunkBufferSize > 0 && !io.bufferCreated then r == Exit
              else && r.Running? && r.session == s && !r.flushed
                   && r.worker == w.(chunkCap := s.chunkBufferSize, buf := r.worker.buf)
                   && (s.chunkBufferSize > 0 ==> r.worker.buf.Capacity() == s.chunkBufferSize && r.worker.buf.used == 0)
    ensures !shutdown && !s.destroyed && w.chunkCap > 0 ==> r.Running? && r.worker.chunkCap == w.chunkCap
    ensures !shutdown && !s.destroyed && w.chunkCap > 0 ==> r.session.audio.items == PassDrain(s, w).rest
    ensures r.Running? ==> Valid(lim, r.session) && WorkerValid(r.worker)
    ensures r.Running? ==> r.session == s.(audio := r.session.audio, text := r.session.text, results := r.session.results)
    ensures r.Running? ==>
              && |r.session.audio.items| <= |s.audio.items|
              && r.session.audio.items == s.audio.items[|s.audio.items| - |r.session.audio.items|..]
    ensures r.Running? && !r.flushed ==> r.session.text == s.text && r.session.results == s.results
    ensures r.Running? && r.flushed ==>
              && r.worker.buf.used == 0 && r.worker.schunks == 0 && r.worker.deadline == 0
              && r.session == Publish(lim, s.(audio := r.session.audio), io.reply(RequestModel(g, s)))
    ensures !shutdown && !s.destroyed && w.chunkCap > 0 ==>
              && (r.flushed <==> && PassDeadline(g, s, w, armTime) != 0 && PassDeadline(g, s, w, armTime) <= checkTime
                                 && PassDrain(s, w).buf.used > 0 && io.fileWritten)
              && (!r.flushed ==> r.worker == w.(buf := PassDrain(s, w).buf, schunks := PassDrain(s, w).schunks,
                                                deadline := PassDeadline(g, s, w, armTime)))
  {
    if shutdown || s.destroyed then Exit
    else if w.chunkCap == 0 then
      if s.chunkBufferSize > 0 then
        if !io.bufferCreated then Exit
        else Running(s, w.(chunkCap := s.chunkBufferSize, buf := Create(s.chunkBufferSize)), false)
      else Running(s, w, false)
    else
      var d := PassDrain(s, w);
      var q := s.audio.(items := d.rest);
      AudioKeepsValid(lim, s, q);
      var s1 := s.(audio := q);
      var dl := PassDeadline(g, s, w, armTime);
      var w1 := w.(buf := d.buf, schunks := d.schunks, deadline := dl);
      if dl != 0 && dl <= checkTime && d.buf.used > 0 && io.fileWritten then
        Running(Publish(lim, s1, io.reply(RequestModel(g, s))), Worker(w.chunkCap, Zero(d.buf), 0, 0), true)
      else
        Running(s1, w1, false)
  }
}

=== FILE: assembler_proofs.dfy ===
/** Properties of the worker pass: when an utterance is sent, that the end
    of sentence deadline is never pushed back, and that queued speech lands
    in the utterance buffer intact. */
module AssemblerProofs {
  import opened Common
  import opened Buffers
  import opened Config
  import opened Sessions
  import opened Results
  import opened Assembler

  /** A pass over a live session with a latched buffer. */
  predicate Live(lim: Limits, s: Session, w: Worker) {
    Valid(lim, s) && WorkerValid(w) && !s.destroyed && w.chunkCap > 0
  }

  /** Once armed, the deadline stays where it is until the utterance is
      sent, however much more speech arrives; only an overflow replaces it,
      by one that is already due. */
  lemma DeadlineNeverPostponed(lim: Limits, g: Globals, s: Session, w: Worker, armTime: int, checkTime: int, io: Io)
    requires Live(lim, s, w) && w.deadline != 0
    ensures var r := Tick(lim, g, false, s, w, armTime, checkTime, io);
            && r.Running?
            && (!r.flushed ==> r.worker.deadline == w.deadline || r.worker.deadline == 1)
            && (!r.flushed && !Drain(w.buf, w.chunkCap, w.schunks, s.audio.items).overflow ==>
                  r.worker.deadline == w.deadline)
  {
  }

  /** An overflow sends the utterance in the same pass (given a clock past
      time 1 and a file that could be written), and the buffer is emptied. */
  lemma OverflowFlushesAtOnce(lim: Limits, g: Globals, s: Session, w: Worker, armTime: int, checkTime: int, io: Io)
    requires Live(lim, s, w) && checkTime >= 1 && io.fileWritten
    requires Drain(w.buf, w.chunkCap, w.schunks, s.audio.items).overflow
    ensures var r := Tick(lim, g, false, s, w, armTime, checkTime, io);
            && r.Running? && r.flushed
            && r.worker.buf.used == 0 && r.worker.schunks == 0 && r.worker.deadline == 0
  {
  }

  /** Queued speech that fills the utterance buffer exactly ends the
      utterance: the same pass sends it, whatever the deadline was. */
  lemma ExactFillFlushes(lim: Limits, g: Globals, s: Session, w: Worker, armTime: int, checkTime: int, io: Io)
    requires Live(lim, s, w) && checkTime >= 1 && io.fileWritten
    requires |s.audio.items| > 0 && |s.audio.items[0]| > 0
    requires w.buf.used + |s.audio.items[0]| == w.chunkCap
    ensures var r := Tick(lim, g, false, s, w, armTime, checkTime, io);
            && r.Running? && r.flushed && r.worker.buf.used == 0
            && r.session.audio.items == s.audio.items[1..]
  {
    assert s.audio.items == [s.audio.items[0]] + s.audio.items[1..];
    ExactFillOverflows(w.buf, w.chunkCap, w.schunks, s.audio.items[0], s.audio.items[1..]);
    OverflowFlushesAtOnce(lim, g, s, w, armTime, checkTime, io);
  }

  /** Nothing is sent, and nothing is reset, while the utterance buffer is
      empty or its audio file cannot be written: the drained buffer, the
      chunk count and the deadline carry over to the next pass. */
  lemma NoFileNoReset(lim: Limits, g: Globals, s: Session, w: Worker, armTime: int, checkTime: int, io: Io)
    requires Live(lim, s, w)
    requires !io.fileWritten || Drain(w.buf, w.chunkCap, w.schunks, s.audio.items).buf.used == 0
    ensures var r := Tick(lim, g, false, s, w, armTime, checkTime, io);
            var d := Drain(w.buf, w.chunkCap, w.schunks, s.audio.items);
            && r.Running? && !r.flushed
            && r.worker.buf == d.buf && r.worker.schunks == d.schunks
            && r.worker.deadline == Arm(d.overflow, d.schunks, s.vadState, w.deadline, g.sentenceThresholdSec, armTime)
            && r.session.text == s.text && r.session.results == s.results
  {
  }

  /** With no deadline armed and nobody having stopped talking, a pass moves
      everything queued, in order, into the utterance buffer (when it fits
      with room to spare), counts it, and sends nothing. */
  lemma SpeechReachesBuffer(lim: Limits, g: Globals, s: Session, w: Worker, armTime: int, checkTime: int, io: Io)
    requires Live(lim, s, w) && w.deadline == 0 && s.vadState != StopTalking
    requires w.buf.used + |Flatten(s.audio.items)| < w.chunkCap
    ensures var r := Tick(lim, g, false, s, w, armTime, checkTime, io);
            && r.Running? && !r.flushed
            && r.session.audio.items == []
            && r.worker.buf.Content() == w.buf.Content() + Flatten(s.audio.items)
            && r.worker.schunks == w.schunks + NonEmpty(s.audio.items)
            && r.worker.deadline == 0
  {
    DrainConserves(w.buf, w.chunkCap, w.schunks, s.audio.items);
  }

  /** After an utterance is sent, a pass with no new speech sends nothing
      and changes nothing. */
  lemma NoSecondFlush(lim: Limits, g: Globals, s: Session, w: Worker, armTime: int, checkTime: int, io: Io,
                       armTime2: int, checkTime2: int, io2: Io)
    requires Live(lim, s, w)
    requires var r := Tick(lim, g, false, s, w, armTime, checkTime, io); r.Running? && r.flushed && r.session.audio.items == []
    ensures var r := Tick(lim, g, false, s, w, armTime, checkTime, io);
            Tick(lim, g, false, r.session, r.worker, armTime2, checkTime2, io2) == Running(r.session, r.worker, false)
  {
    var r := Tick(lim, g, false, s, w, armTime, checkTime, io);
    assert Live(lim, r.session, r.worker);
    var d := Drain(r.worker.buf, r.worker.chunkCap, 0, []);
    assert d == Drained(r.worker.buf, 0, false, []);
    assert r.session.(audio := r.session.audio.(items := [])) == r.session;
  }

  /** The pass that buffers speech after the speaker stopped arms the
      deadline `threshold` seconds ahead and sends nothing yet, provided
      the clock has not reached that deadline by the time it is checked. */
  lemma StopArmsDeadline(lim: Limits, g: Globals, s: Session, w: Worker, armTime: int, checkTime: int, io: Io)
    requires Live(lim, s, w) && w.deadline == 0 && w.buf.used == 0 && w.schunks == 0
    requires s.vadState == StopTalking && g.sentenceThresholdSec > 0 && armTime >= 0
    requires checkTime < armTime + g.sentenceThresholdSec
    requires NonEmpty(s.audio.items) > 0 && |Flatten(s.audio.items)| < w.chunkCap
    ensures var r := Tick(lim, g, false, s, w, armTime, checkTime, io);
            && r.Running? && !r.flushed && r.worker.deadline == armTime + g.sentenceThresholdSec
            && r.worker.buf.Content() == Flatten(s.audio.items) && r.worker.buf.used > 0
            && r.session.audio.items == [] && Live(lim, r.session, r.worker)
  {
    DrainConserves(w.buf, w.chunkCap, w.schunks, s.audio.items);
    FlattenNonEmpty(s.audio.items);
  }

  /** A pass with no new speech, at or after an armed deadline, sends the
      buffered utterance and resets the worker. */
  lemma DueDeadlineFlushes(lim: Limits, g: Globals, s: Session, w: Worker, armTime: int, checkTime: int, io: Io)
    requires Live(lim, s, w) && s.audio.items == []
    requires w.deadline != 0 && w.deadline <= checkTime && w.buf.used > 0 && io.fileWritten
    ensures var r := Tick(lim, g, false, s, w, armTime, checkTime, io);
            && r.Running? && r.flushed && r.worker.buf.used == 0
            && r.session == Publish(lim, s, io.reply(RequestModel(g, s)))
  {
    assert Drain(w.buf, w.chunkCap, w.schunks, s.audio.items) == Drained(w.buf, w.schunks, false, []);
    assert Arm(false, w.schunks, s.vadState, w.deadline, g.sentenceThresholdSec, armTime) == w.deadline;
    assert s.(audio := s.audio.(items := [])) == s;
    assert Tick(lim, g, false, s, w, armTime, checkTime, io)
           == Running(Publish(lim, s, io.reply(RequestModel(g, s))), Worker(w.chunkCap, Zero(w.buf), 0, 0), true);
  }

  /** The end of a sentence: when the speaker has stopped, the pass that
      buffers speech arms the deadline `threshold` seconds after its arming
      clock reading and, checked before that time, sends nothing; a pass
      whose check is at or after that time, with no new speech, sends the
      utterance and resets the worker. */
  lemma SentenceEndsAfterThreshold(lim: Limits, g: Globals, s: Session, w: Worker, armTime: int, checkTime: int, io: Io,
                                   armTime2: int, checkTime2: int, io2: Io)
    requires Live(lim, s, w) && w.deadline == 0 && w.buf.used == 0 && w.schunks == 0
    requires s.vadState == StopTalking && g.sentenceThresholdSec > 0 && armTime >= 0
    requires checkTime < armTime + g.sentenceThresholdSec
    requires NonEmpty(s.audio.items) > 0 && |Flatten(s.audio.items)| < w.chunkCap
    requires checkTime2 >= armTime + g.sentenceThresholdSec && io2.fileWritten
    ensures var r := Tick(lim, g, false, s, w, armTime, checkTime, io);
            && r.Running? && !r.flushed
            && var r2 := Tick(lim, g, false, r.session, r.worker, armTime2, checkTime2, io2);
               r2.Running? && r2.flushed && r2.worker.buf.used == 0
               && r2.session == Publish(lim, r.session, io2.reply(RequestModel(g, r.session)))
  {
    StopArmsDeadline(lim, g, s, w, armTime, checkTime, io);
    var r := Tick(lim, g, false, s, w, armTime, checkTime, io);
    DueDeadlineFlushes(lim, g, r.session, r.worker, armTime2, checkTime2, io2);
  }

  /** Chunks that are not all empty flatten to something non-empty. */
  lemma {:induction false} FlattenNonEmpty(items: seq<Chunk>)
    requires NonEmpty(items) > 0
    ensures |Flatten(items)| > 0
    decreases |items|
  {
    FlattenHead(items);
    if |items[0]| == 0 {
      FlattenNonEmpty(items[1..]);
    }
  }

  /** The model a request names: the configured one for a session just
      opened, and from then on the last value the `model` option was set to,
      whatever the case of its key. */
  lemma RequestNamesModelOption(lim: Limits, g: Globals, codec: string, samplerate: nat, resources: bool,
                                s: Session, key: string, v: string)
    requires lim.Valid()
    ensures var o := Open(lim, codec, samplerate, resources);
            o.Ok? ==> RequestModel(g, o.value) == g.model
    ensures SameKey(key, "model") ==> RequestModel(g, TextParam(s, key, Some(v))) == Some(v)
    ensures !SameKey(key, "model") ==> RequestModel(g, TextParam(s, key, Some(v))) == RequestModel(g, s)
  {
  }
}

=== FILE: buffers.dfy ===
/** The host library's storage primitives as the module uses them: a
    fixed-capacity byte buffer, a bounded non-blocking FIFO queue, and
    concatenation of byte chunks. */
module Buffers {
  import opened Common

  newtype byte = x: int | 0 <= x < 256

  /** A fixed-capacity byte buffer. `data` is the whole allocation and its
      first `used` bytes are the live content; bytes past `used` are whatever
      an earlier fill left there. */
  datatype ByteBuffer = ByteBuffer(data: seq<byte>, used: nat) {

    predicate Valid() {
      used <= |data|
    }

    function Capacity(): nat {
      |data|
    }

    /** The live bytes, as a zero-copy peek returns them. */
    function Content(): seq<byte>
      requires Valid()
    {
      data[..used]
    }
  }

  /** A buffer allocated from a memory pool: the pool hands out zero-filled
      memory, so the physical bytes start as zeros. */
  function Create(size: nat): (b: ByteBuffer)
    ensures b.Valid() && b.Capacity() == size && b.used == 0
    ensures forall i :: 0 <= i < size ==> b.data[i] == 0
  {
    ByteBuffer(seq(size, _ => 0), 0)
  }

  /** Emptying a buffer only forgets its length; the stale bytes stay. */
  function Zero(b: ByteBuffer): (z: ByteBuffer)
    requires b.Valid()
    ensures z.Valid() && z.used == 0 && z.Content() == []
    ensures z.data == b.data
  {
    b.(used := 0)
  }

  /** The assumed contract of the library's bounded write: when the bytes fit
      they are appended and the new live length is returned; otherwise
      nothing is written and 0 is returned. */
  function Write(b: ByteBuffer, x: seq<byte>): (r: (ByteBuffer, nat))
    requires b.Valid()
    ensures r.0.Valid() && r.0.Capacity() == b.Capacity()
    ensures b.used + |x| <= b.Capacity() ==>
              r.0.Content() == b.Content() + x && r.1 == r.0.used == b.used + |x|
    ensures b.used + |x| <= b.Capacity() ==> r.0.data[r.0.used..] == b.data[r.0.used..]
    ensures b.used + |x| > b.Capacity() ==> r.0 == b && r.1 == 0
  {
    if b.used + |x| <= |b.data| then
      var nb := ByteBuffer(b.data[..b.used] + x + b.data[b.used + |x|..], b.used + |x|);
      assert nb.data[..nb.used] == b.data[..b.used] + x;
      (nb, nb.used)
    else
      (b, 0)
  }

  /** A bounded FIFO queue: pushing never blocks and fails when full. */
  datatype Queue<T> = Queue(items: seq<T>, capacity: nat) {
    predicate Valid() {
      |items| <= capacity
    }
  }

  function EmptyQueue<T>(capacity: nat): (q: Queue<T>)
    ensures q.Valid() && q.items == [] && q.capacity == capacity
  {
    Queue([], capacity)
  }

  /** Non-blocking push: reports whether the item was accepted. */
  function TryPush<T>(q: Queue<T>, x: T): (r: (bool, Queue<T>))
    requires q.Valid()
    ensures r.1.Valid() && r.1.capacity == q.capacity
    ensures r.0 <==> |q.items| < q.capacity
    ensures r.0 ==> r.1.items == q.items + [x]
    ensures !r.0 ==> r.1 == q
  {
    if |q.items| < q.capacity then (true, q.(items := q.items + [x])) else (false, q)
  }

  /** A push whose failure is silently ignored (the item is dropped). */
  function Enqueue<T>(q: Queue<T>, x: T): (r: Queue<T>)
    requires q.Valid()
    ensures r.Valid() && r.capacity == q.capacity
    ensures |q.items| < q.capacity ==> r.items == q.items + [x]
    ensures |q.items| >= q.capacity ==> r == q
  {
    TryPush(q, x).1
  }

  /** Non-blocking pop of the oldest item. */
  function TryPop<T>(q: Queue<T>): (r: Option<(T, Queue<T>)>)
    requires q.Valid()
    ensures r.None? <==> q.items == []
    ensures r.Some? ==> [r.value.0] + r.value.1.items == q.items
    ensures r.Some? ==> r.value.1.Valid() && r.value.1.capacity == q.capacity
  {
    if |q.items| == 0 then None else Some((q.items[0], q.(items := q.items[1..])))
  }

  /** The concatenation of a sequence of chunks, oldest first. */
  function Flatten(cs: seq<seq<byte>>): seq<byte>
  {
    if |cs| == 0 then [] else Flatten(cs[..|cs| - 1]) + cs[|cs| - 1]
  }

  /** Every chunk has exactly `n` bytes (a run of whole frames). */
  predicate Uniform(cs: seq<seq<byte>>, n: nat) {
    forall i :: 0 <= i < |cs| ==> |cs[i]| == n
  }

  /** A slice of a slice is a slice of the original. */
  lemma SliceOfSlice<T>(s: seq<T>, a: nat, b: nat, i: nat, j: nat)
    requires a <= b <= |s| && i <= j <= b - a
    ensures s[a..b][i..j] == s[a + i..a + j]
  {
    var x, y := s[a..b][i..j], s[a + i..a + j];
    forall t | 0 <= t < |x|
      ensures x[t] == y[t]
    {
      assert x[t] == s[a..b][i + t];
    }
  }

  lemma FlattenOne(f: seq<byte>)
    ensures Flatten([f]) == f
  {
    assert [f][..0] == [];
  }

  lemma {:induction false} FlattenAppend(a: seq<seq<byte>>, b: seq<seq<byte>>)
    ensures Flatten(a + b) == Flatten(a) + Flatten(b)
    decreases |b|
  {
    if |b| == 0 {
      assert a + b == a;
    } else {
      var b' := b[..|b| - 1];
      assert (a + b)[..|a + b| - 1] == a + b';
      FlattenAppend(a, b');
      calc {
        Flatten(a + b);
        Flatten(a + b') + b[|b| - 1];
        (Flatten(a) + Flatten(b')) + b[|b| - 1];
        Flatten(a) + (Flatten(b') + b[|b| - 1]);
      }
    }
  }

  lemma {:induction false} FlattenLength(cs: seq<seq<byte>>, n: nat)
    requires Uniform(cs, n)
    ensures |Flatten(cs)| == |cs| * n
    decreases |cs|
  {
    if |cs| > 0 {
      FlattenLength(cs[..|cs| - 1], n);
      assert |cs| * n == (|cs| - 1) * n + n;
    }
  }

  /** In a run of whole frames, frames i..j occupy bytes i*n .. j*n. */
  lemma FlattenSlice(cs: seq<seq<byte>>, n: nat, i: nat, j: nat)
    requires Uniform(cs, n) && i <= j <= |cs|
    ensures i * n <= j * n <= |Flatten(cs)|
    ensures Flatten(cs[i..j]) == Flatten(cs)[i * n..j * n]
  {
    var a, m, z := cs[..i], cs[i..j], cs[j..];
    assert cs == (a + m) + z;
    FlattenAppend(a + m, z);
    FlattenAppend(a, m);
    var fa, fm, fz := Flatten(a), Flatten(m), Flatten(z);
    assert Flatten(cs) == fa + fm + fz;
    FlattenLength(a, n);
    FlattenLength(m, n);
    FlattenLength(z, n);
    FrameOffsets(n, i, j, |cs|);
    Middle(fa, fm, fz);
  }

  /** The middle part of a three-way concatenation, stated apart to keep
      the slicing proof above small. */
  lemma Middle(x: seq<byte>, y: seq<byte>, z: seq<byte>)
    ensures (x + y + z)[|x|..|x| + |y|] == y
  {
  }

  lemma FrameOffsets(n: nat, i: nat, j: nat, k: nat)
    requires i <= j <= k
    ensures i * n + (j - i) * n == j * n
    ensures j * n + (k - j) * n == k * n
    ensures i * n <= j * n <= k * n
  {
  }
}

=== FILE: common.dfy ===
/** Small vocabulary shared by every part of the model: optional values,
    the host's status codes, and a success-or-status result. */
module Common {

  /** A value that may be absent (a NULL pointer in the host API). */
  datatype Option<+T> = None | Some(value: T)

  /** The subset of host status codes the module returns. */
  datatype Status = Success | Break | False | GenErr

  /** Either a value or the status code reported instead of it. */
  datatype Result<+T> = Ok(value: T) | Err(status: Status)
}

=== FILE: config.dfy ===
/** Module-wide configuration: the compile-time limits of the module and the
    settings read once at load time. */
module Config {
  import opened Common

  /** The compile-time constants of the module, kept abstract: how many frames
      the pre-roll store holds, how many of them are recovered at speech onset,
      the capacity of each session queue, and the floor on the utterance
      length in seconds. */
  datatype Limits = Limits(storeFrames: nat, recoveryFrames: nat, queueSize: nat, defSentenceMaxSec: nat) {
    predicate Valid() {
      && storeFrames > 0
      && recoveryFrames > 0
      && recoveryFrames <= storeFrames
      && queueSize > 0
      && defSentenceMaxSec > 0
    }
  }

  /** The settings as read from the configuration file, before defaults are
      applied; an absent parameter is None, a numeric one not given is 0. */
  datatype Settings = Settings(
    apiUrl: Option<string>,
    apiKey: Option<string>,
    encoding: Option<string>,
    model: Option<string>,
    sentenceMaxSec: int,
    sentenceThresholdSec: int)

  /** The settings every session reads once loading has succeeded. */
  datatype Globals = Globals(
    apiUrl: string,
    apiKey: string,
    encoding: string,
    model: Option<string>,
    sentenceMaxSec: nat,
    sentenceThresholdSec: int)

  const DefaultEncoding: string := "wav"

  /** Applies the post-parse checks and defaults of module load: the endpoint
      and the key are mandatory, the temp-file encoding defaults to WAV and the
      utterance length is raised to at least the module floor. */
  function FinishSettings(lim: Limits, s: Settings): (r: Result<Globals>)
    requires lim.Valid()
    ensures r.Err? <==> s.apiUrl.None? || s.apiKey.None?
    ensures r.Err? ==> r.status == GenErr
    ensures r.Ok? ==> r.value.apiUrl == s.apiUrl.value && r.value.apiKey == s.apiKey.value
    ensures r.Ok? && s.encoding.None? ==> r.value.encoding == DefaultEncoding
    ensures r.Ok? && s.encoding.Some? ==> r.value.encoding == s.encoding.value
    ensures r.Ok? ==> r.value.sentenceMaxSec >= lim.defSentenceMaxSec && r.value.sentenceMaxSec >= s.sentenceMaxSec
    ensures r.Ok? ==> r.value.sentenceMaxSec == s.sentenceMaxSec || r.value.sentenceMaxSec == lim.defSentenceMaxSec
    ensures r.Ok? ==> r.value.model == s.model && r.value.sentenceThresholdSec == s.sentenceThresholdSec
  {
    if s.apiUrl.None? then Err(GenErr)
    else if s.apiKey.None? then Err(GenErr)
    else
      var encoding := if s.encoding.Some? then s.encoding.value else DefaultEncoding;
      var maxSec: nat := if s.sentenceMaxSec > lim.defSentenceMaxSec then s.sentenceMaxSec else lim.defSentenceMaxSec;
      Ok(Globals(s.apiUrl.value, s.apiKey.value, encoding, s.model, maxSec, s.sentenceThresholdSec))
  }
}

=== FILE: feed.dfy ===
/** The per-frame entry point: gating, the one-time latch of sizes from the
    first frame, pre-roll storage while nobody talks, and what is queued for
    transcription depending on the detector's verdict. The detector itself is
    an oracle: its verdict for the frame is a parameter. */
module VadGate {
  import opened Common
  import opened Buffers
  import opened Config
  import opened Sessions
  import PR = PreRoll

  datatype Fed = Fed(status: Status, session: Session)

  /** Whether a frame gets past the gate: the session is live, not paused,
      and the frame is not empty (a NULL frame is an empty one here). */
  predicate Admitted(s: Session, data: Chunk) {
    !s.closed && !s.destroyed && !s.abort && !s.paused && |data| > 0
  }

  /** The first frame fixes the frame length and both buffer sizes; the
      pre-roll exists only if its allocation (`created`) succeeded. Later
      frames change nothing here. */
  function Latch(lim: Limits, g: Globals, s: Session, dataLen: nat, created: bool): (t: Session)
    requires Valid(lim, s) && dataLen > 0
    ensures Valid(lim, t) && t.frameLen > 0
    ensures s.frameLen == 0 ==>
              && t.frameLen == dataLen
              && t.chunkBufferSize == s.samplerate * g.sentenceMaxSec
              && t.vadBufferSize == (if created then dataLen * lim.storeFrames else 0)
              && t.preRoll.stored == 0 && t.preRoll.buf.used == 0
              && t.preRoll.firstCycle == s.preRoll.firstCycle
              && t == s.(frameLen := t.frameLen, vadBufferSize := t.vadBufferSize,
                         chunkBufferSize := t.chunkBufferSize, preRoll := t.preRoll)
    ensures s.frameLen != 0 ==> t == s
  {
    if s.frameLen == 0 then
      var size := dataLen * lim.storeFrames;
      assert size > 0;
      if created then
        s.(frameLen := dataLen, vadBufferSize := size,
           chunkBufferSize := s.samplerate * g.sentenceMaxSec,
           preRoll := s.preRoll.(buf := Create(size)))
      else
        s.(frameLen := dataLen, vadBufferSize := 0,
           chunkBufferSize := s.samplerate * g.sentenceMaxSec)
    else s
  }

  /** Whether the frame goes into the pre-roll: there is a pre-roll, nobody
      is talking (the last reported state is none or stop-talking), and the
      frame is no longer than the latched frame length. */
  predicate StoresFrame(s: Session, dataLen: nat) {
    s.vadBufferSize != 0 && (s.vadState == VadNone || s.vadState == StopTalking) && dataLen <= s.frameLen
  }

  function StoreStep(lim: Limits, s: Session, data: Chunk): (t: Session)
    requires Valid(lim, s) && |data| > 0
    ensures Valid(lim, t)
    ensures StoresFrame(s, |data|) ==> t == s.(preRoll := PR.Store(lim, s.preRoll, s.frameLen, data))
    ensures !StoresFrame(s, |data|) ==> t == s
  {
    if StoresFrame(s, |data|) then s.(preRoll := PR.Store(lim, s.preRoll, s.frameLen, data)) else s
  }

  /** The detector state after a verdict: onset, talking and stop-talking
      become the state; none and error leave it as it was. */
  function Observe(cur: VadState, v: VadState): (next: VadState)
    ensures v == VadNone || v == VadError ==> next == cur
    ensures v == StartTalking || v == Talking || v == StopTalking ==> next == v
  {
    if v == VadNone || v == VadError then cur else v
  }

  /** Only onset and talking mean the frame carries speech. */
  predicate HasSpeech(v: VadState) {
    v == StartTalking || v == Talking
  }

  /** The verdicts that carry speech are the ones the detector state
      records as speech; stop-talking ends it, and none and error leave the
      recorded state, speech or not, as it was. */
  lemma SpeechVerdicts(cur: VadState, v: VadState)
    ensures HasSpeech(v) ==> HasSpeech(Observe(cur, v))
    ensures v == StopTalking ==> !HasSpeech(v) && !HasSpeech(Observe(cur, v))
    ensures v == VadNone || v == VadError ==> !HasSpeech(v) && Observe(cur, v) == cur
  {
  }

  /** What onset does to a session whose pre-roll holds frames: the recovery
      chunk (which exists, since stored frames left bytes) is queued, and the
      store is emptied, keeping its physical bytes and its cycle flag. */
  predicate Onset(lim: Limits, s: Session, data: Chunk, t: Session)
    requires Valid(lim, s) && s.preRoll.stored > 0
  {
    && PR.Valid(lim, s.preRoll, s.frameLen)
    && PR.RecoveryChunk(lim, s.preRoll, s.frameLen, data).Some?
    && t.audio == Enqueue(s.audio, PR.RecoveryChunk(lim, s.preRoll, s.frameLen, data).value)
    && t.preRoll.stored == 0 && t.preRoll.buf.used == 0
    && t.preRoll.buf.data == s.preRoll.buf.data && t.preRoll.firstCycle == s.preRoll.firstCycle
  }

  /** Queues speech: at onset with frames in the pre-roll, the recovery chunk
      (after which the pre-roll is emptied); otherwise the frame itself. A
      full queue drops the chunk. */
  function Emit(lim: Limits, s: Session, v: VadState, data: Chunk): (t: Session)
    requires Valid(lim, s)
    ensures Valid(lim, t)
    ensures t == s.(audio := t.audio, preRoll := t.preRoll)
    ensures v == StartTalking && s.preRoll.stored > 0 ==> Onset(lim, s, data, t)
    ensures !(v == StartTalking && s.preRoll.stored > 0) ==>
              t.audio == Enqueue(s.audio, data) && t.preRoll == s.preRoll
  {
    if v == StartTalking && s.preRoll.stored > 0 then
      match PR.RecoveryChunk(lim, s.preRoll, s.frameLen, data)
      case Some(c) =>
        s.(audio := Enqueue(s.audio, c), preRoll := PR.Drop(lim, s.preRoll, s.frameLen))
      case None => s
    else
      s.(audio := Enqueue(s.audio, data))
  }

  /** With a pre-roll: store the frame while nobody talks, record the
      detector's verdict, and queue speech. */
  function Detect(lim: Limits, s: Session, data: Chunk, vad: VadState): (t: Session)
    requires Valid(lim, s) && |data| > 0
    ensures Valid(lim, t)
    ensures t == s.(audio := t.audio, preRoll := t.preRoll, vadState := t.vadState)
    ensures t.vadState == Observe(s.vadState, vad)
    ensures vad != StartTalking ==> t.preRoll == StoreStep(lim, s, data).preRoll
    ensures !HasSpeech(vad) ==> t.audio == s.audio
    ensures vad == Talking ==> t.audio == Enqueue(s.audio, data)
    ensures vad == StartTalking && StoreStep(lim, s, data).preRoll.stored > 0 ==>
              Onset(lim, StoreStep(lim, s, data), data, t)
    ensures vad == StartTalking && StoreStep(lim, s, data).preRoll.stored == 0 ==>
              t.audio == Enqueue(s.audio, data) && t.preRoll == s.preRoll
  {
    var s2 := StoreStep(lim, s, data);
    var next := Observe(s2.vadState, vad);
    VadStateKeepsValid(lim, s2, next);
    var s3 := s2.(vadState := next);
    if HasSpeech(vad) then Emit(lim, s3, vad, data) else s3
  }

  /** What an admitted frame does once the sizes are latched: with a
      pre-roll, it goes through the detector; without one, it is queued as
      it is. Only the speech queue, the pre-roll and the detector state
      change. */
  function Process(lim: Limits, s: Session, data: Chunk, vad: VadState): (t: Session)
    requires Valid(lim, s) && |data| > 0
    ensures Valid(lim, t)
    ensures t == s.(audio := t.audio, preRoll := t.preRoll, vadState := t.vadState)
    ensures s.vadBufferSize == 0 ==>
              t.audio == Enqueue(s.audio, data) && t.preRoll == s.preRoll && t.vadState == s.vadState
    ensures s.vadBufferSize != 0 ==>
              && t.vadState == Observe(s.vadState, vad)
              && (!HasSpeech(vad) ==> t.audio == s.audio)
              && (vad == Talking ==> t.audio == Enqueue(s.audio, data))
  {
    if s.vadBufferSize != 0 then Detect(lim, s, data, vad)
    else Emit(lim, s, VadNone, data)
  }

  /** One frame from the host. `created` says whether the pre-roll buffer can
      be allocated (consulted on the first frame only) and `vad` is the
      detector's verdict for this frame (consulted only when there is a
      pre-roll). */
  function Feed(lim: Limits, g: Globals, s: Session, data: Chunk, created: bool, vad: VadState): (r: Fed)
    requires Valid(lim, s)
    ensures Valid(lim, r.session)
    ensures s.closed || s.destroyed || s.abort ==> r == Fed(Break, s)
    ensures !(s.closed || s.destroyed || s.abort) && s.paused ==> r == Fed(Success, s)
    ensures !(s.closed || s.destroyed || s.abort || s.paused) && |data| == 0 ==> r == Fed(Break, s)
    ensures Admitted(s, data) ==> r.status == Success && r.session.frameLen > 0
    ensures Admitted(s, data) && s.frameLen == 0 ==>
              && r.session.frameLen == |data|
              && r.session.chunkBufferSize == s.samplerate * g.sentenceMaxSec
              && r.session.vadBufferSize == (if created then |data| * lim.storeFrames else 0)
    ensures s.frameLen != 0 ==>
              && r.session.frameLen == s.frameLen
              && r.session.vadBufferSize == s.vadBufferSize
              && r.session.chunkBufferSize == s.chunkBufferSize
    ensures r.session.text == s.text && r.session.results == s.results
    ensures r.session.(audio := s.audio, preRoll := s.preRoll, vadState := s.vadState,
                       frameLen := s.frameLen, vadBufferSize := s.vadBufferSize,
                       chunkBufferSize := s.chunkBufferSize) == s
  {
    if s.closed then Fed(Break, s)
    else if s.destroyed || s.abort then Fed(Break, s)
    else if s.paused then Fed(Success, s)
    else if |data| == 0 then Fed(Break, s)
    else
      Fed(Success, Process(lim, Latch(lim, g, s, |data|, created), data, vad))
  }
}

=== FILE: feed_proofs.dfy ===
/** What a frame fed to a live session does, by detector verdict, and the
    end-to-end onset property: silence frames go into the pre-roll and the
    onset frame queues the last frames heard followed by itself. */
module FeedProofs {
  import opened Common
  import opened Buffers
  import opened Config
  import opened Sessions
  import opened VadGate
  import PR = PreRoll
  import PP = PreRollProofs

  /** The gate in front of a frame: only an admitted frame changes the
      session, and a frame is answered with success exactly when it is
      admitted or the live session is paused. */
  lemma FeedGate(lim: Limits, g: Globals, s: Session, data: Chunk, created: bool, vad: VadState)
    requires Valid(lim, s)
    ensures var r := Feed(lim, g, s, data, created, vad);
            && (!Admitted(s, data) ==> r.session == s)
            && (r.status == Success <==> Admitted(s, data) || (s.paused && !s.closed && !s.destroyed && !s.abort))
  {
  }

  /** Without a pre-roll (its allocation failed) every admitted frame is
      queued as it is, and the detector is not consulted. */
  lemma FeedWithoutPreRoll(lim: Limits, g: Globals, s: Session, data: Chunk, created: bool, vad: VadState)
    requires Valid(lim, s) && Admitted(s, data)
    requires Latch(lim, g, s, |data|, created).vadBufferSize == 0
    ensures var t := Feed(lim, g, s, data, created, vad).session;
            t.audio == Enqueue(s.audio, data) && t.vadState == s.vadState && t.preRoll == s.preRoll
  {
  }

  /** With a pre-roll, a frame judged silent (none, stop-talking, or a
      detector error) queues nothing; stop-talking becomes the state. */
  lemma FeedSilent(lim: Limits, g: Globals, s: Session, data: Chunk, created: bool, vad: VadState)
    requires Valid(lim, s) && Admitted(s, data)
    requires Latch(lim, g, s, |data|, created).vadBufferSize != 0
    requires vad == VadNone || vad == StopTalking || vad == VadError
    ensures var t := Feed(lim, g, s, data, created, vad).session;
            && t.audio == s.audio
            && t.vadState == (if vad == StopTalking then StopTalking else s.vadState)
  {
  }

  /** While talking, the frame itself is queued. */
  lemma FeedTalking(lim: Limits, g: Globals, s: Session, data: Chunk, created: bool)
    requires Valid(lim, s) && Admitted(s, data)
    requires Latch(lim, g, s, |data|, created).vadBufferSize != 0
    ensures var t := Feed(lim, g, s, data, created, Talking).session;
            t.audio == Enqueue(s.audio, data) && t.vadState == Talking
  {
  }

  /** While nobody talks, a frame no longer than the frame length is stored
      in the pre-roll (emptying it first when full) whatever the verdict
      other than onset; otherwise the pre-roll is left alone. */
  lemma FeedStores(lim: Limits, g: Globals, s: Session, data: Chunk, created: bool, vad: VadState)
    requires Valid(lim, s) && Admitted(s, data) && vad != StartTalking
    ensures var s1 := Latch(lim, g, s, |data|, created);
            var t := Feed(lim, g, s, data, created, vad).session;
            && (StoresFrame(s1, |data|) ==> t.preRoll == PR.Store(lim, s1.preRoll, s1.frameLen, data))
            && (!StoresFrame(s1, |data|) ==> t.preRoll == s1.preRoll)
  {
  }

  /** At onset the frame is first stored (if nobody was talking), then, when
      the pre-roll holds frames, the recovery chunk is queued and the
      pre-roll emptied whether or not the queue took it; with nothing stored
      the frame is queued alone. */
  lemma FeedOnset(lim: Limits, g: Globals, s: Session, data: Chunk, created: bool)
    requires Valid(lim, s) && Admitted(s, data)
    requires Latch(lim, g, s, |data|, created).vadBufferSize != 0
    ensures var s2 := StoreStep(lim, Latch(lim, g, s, |data|, created), data);
            var t := Feed(lim, g, s, data, created, StartTalking).session;
            && t.vadState == StartTalking
            && (s2.preRoll.stored > 0 ==>
                  && PR.RecoveryChunk(lim, s2.preRoll, s2.frameLen, data).Some?
                  && t.audio == Enqueue(s.audio, PR.RecoveryChunk(lim, s2.preRoll, s2.frameLen, data).value)
                  && t.preRoll.stored == 0 && t.preRoll.buf.used == 0
                  && t.preRoll.buf.data == s2.preRoll.buf.data
                  && t.preRoll.firstCycle == s2.preRoll.firstCycle)
            && (s2.preRoll.stored == 0 ==> t.audio == Enqueue(s.audio, data))
  {
  }

  /** Feeds frames the detector judges silent, oldest first. */
  function FeedSilence(lim: Limits, g: Globals, s: Session, fs: seq<Chunk>): (t: Session)
    requires Valid(lim, s)
    ensures Valid(lim, t)
    decreases |fs|
  {
    if |fs| == 0 then s
    else Feed(lim, g, FeedSilence(lim, g, s, fs[..|fs| - 1]), fs[|fs| - 1], true, VadNone).session
  }

  /** A session ready to store whole frames: live, sized, with a pre-roll,
      and nobody talking. */
  predicate Listening(lim: Limits, s: Session) {
    && Valid(lim, s)
    && !s.closed && !s.destroyed && !s.abort && !s.paused
    && s.frameLen > 0 && s.vadBufferSize != 0
    && (s.vadState == VadNone || s.vadState == StopTalking)
  }

  /** Silent whole frames go, in order, into the pre-roll and nowhere else. */
  lemma {:induction false} SilenceFillsPreRoll(lim: Limits, g: Globals, s: Session, fs: seq<Chunk>)
    requires Listening(lim, s) && Uniform(fs, s.frameLen)
    ensures PR.Valid(lim, s.preRoll, s.frameLen)
    ensures forall i :: 0 <= i < |fs| ==> 0 < |fs[i]| <= s.frameLen
    ensures FeedSilence(lim, g, s, fs) == s.(preRoll := PR.StoreAll(lim, s.preRoll, s.frameLen, fs))
    decreases |fs|
  {
    if |fs| > 0 {
      var fs' := fs[..|fs| - 1];
      PP.UniformSlice(fs, s.frameLen, 0, |fs| - 1);
      SilenceFillsPreRoll(lim, g, s, fs');
      var u := FeedSilence(lim, g, s, fs');
      assert Listening(lim, u);
      assert StoresFrame(Latch(lim, g, u, |fs[|fs| - 1]|, true), |fs[|fs| - 1]|);
      FeedStores(lim, g, u, fs[|fs| - 1], true, VadNone);
    }
  }

  /** Onset on a listening session with a whole frame: the frame is stored
      and the recovery chunk of the resulting pre-roll is queued. */
  lemma OnsetAfterListening(lim: Limits, g: Globals, u: Session, f: Chunk)
    requires Listening(lim, u) && 0 < |f| <= u.frameLen
    ensures PR.Valid(lim, u.preRoll, u.frameLen)
    ensures var q := PR.Store(lim, u.preRoll, u.frameLen, f);
            && PR.RecoveryChunk(lim, q, u.frameLen, f).Some?
            && Feed(lim, g, u, f, true, StartTalking).session.audio
               == Enqueue(u.audio, PR.RecoveryChunk(lim, q, u.frameLen, f).value)
  {
    assert Latch(lim, g, u, |f|, true) == u;
    FeedOnset(lim, g, u, f, true);
  }

  /** End to end: after k - 1 silent whole frames into an empty pre-roll, an
      onset on the k-th frame queues the last min(k, R) frames heard
      (including the onset frame) followed by the onset frame again, provided
      the pre-roll is in its first cycle or at least R frames were heard. */
  lemma OnsetQueuesRecentAudio(lim: Limits, g: Globals, s: Session, fs: seq<Chunk>)
    requires Listening(lim, s) && s.preRoll.stored == 0
    requires |fs| >= 1 && Uniform(fs, s.frameLen)
    requires s.preRoll.firstCycle || |fs| >= lim.recoveryFrames
    ensures var k := |fs|;
            var t := Feed(lim, g, FeedSilence(lim, g, s, fs[..k - 1]), fs[k - 1], true, StartTalking).session;
            t.audio == Enqueue(s.audio, Flatten(fs[k - PR.Min(k, lim.recoveryFrames)..]) + fs[k - 1])
  {
    var k, fl := |fs|, s.frameLen;
    var f := fs[k - 1];
    PP.UniformSlice(fs, fl, 0, k - 1);
    SilenceFillsPreRoll(lim, g, s, fs[..k - 1]);
    var u := FeedSilence(lim, g, s, fs[..k - 1]);
    assert u == s.(preRoll := PR.StoreAll(lim, s.preRoll, fl, fs[..k - 1]));
    assert Listening(lim, u);
    OnsetAfterListening(lim, g, u, f);
    assert PR.StoreAll(lim, s.preRoll, fl, fs) == PR.Store(lim, u.preRoll, fl, f) by {
      assert fs[..|fs| - 1] == fs[..k - 1];
    }
    PP.OnsetRecovery(lim, s.preRoll, fl, fs);
  }
}

=== FILE: preroll.dfy ===
/** The pre-roll store: frames heard while nobody is talking are kept so that
    the audio just before speech onset can be recovered. The store is a flat
    buffer of `storeFrames` frames that is emptied (not overwritten) when it is
    full; the bytes of the previous fill stay physically in place and the
    recovery at onset may read them. */
module PreRoll {
  import opened Common
  import opened Buffers
  import opened Config

  /** Buffer, number of frames stored since it was last emptied, and whether
      the store has never yet been emptied for being full. */
  datatype PreRoll = PreRoll(buf: ByteBuffer, stored: nat, firstCycle: bool)

  /** The store's invariant for frames of `frameLen` bytes: the buffer has room
      for `storeFrames` frames and each stored frame contributed between one
      byte and a whole frame. */
  predicate Valid(lim: Limits, p: PreRoll, frameLen: nat) {
    && p.buf.Valid()
    && p.buf.Capacity() == frameLen * lim.storeFrames
    && p.stored <= lim.storeFrames
    && p.stored <= p.buf.used <= p.stored * frameLen
  }

  lemma MulMono(a: nat, b: nat, c: nat)
    requires a <= b
    ensures a * c <= b * c
  {
  }

  lemma MulSucc(a: nat, c: nat)
    ensures (a + 1) * c == a * c + c
  {
  }

  /** A frame fits after `stored` frames of at most `frameLen` bytes each
      when fewer than `storeFrames` are stored. */
  lemma StoreRoom(stored: nat, used: nat, frameLen: nat, storeFrames: nat, n: nat)
    requires stored < storeFrames && used <= stored * frameLen && n <= frameLen
    ensures used + n <= (stored + 1) * frameLen <= storeFrames * frameLen
  {
    MulSucc(stored, frameLen);
    MulMono(stored + 1, storeFrames, frameLen);
  }

  /** The store stays valid when one more frame of at most `frameLen`
      bytes is counted and written. */
  lemma AppendValid(lim: Limits, p: PreRoll, q: PreRoll, frameLen: nat, n: nat)
    requires lim.Valid() && Valid(lim, p, frameLen) && p.stored < lim.storeFrames
    requires 0 < n <= frameLen
    requires q.buf.Valid() && q.buf.Capacity() == p.buf.Capacity()
    requires q.stored == p.stored + 1 && q.buf.used == p.buf.used + n
    ensures Valid(lim, q, frameLen)
  {
    StoreRoom(p.stored, p.buf.used, frameLen, lim.storeFrames, n);
  }

  /** Appends one frame to a store that is not full. */
  function Append(lim: Limits, p: PreRoll, frameLen: nat, frame: seq<byte>): (q: PreRoll)
    requires lim.Valid() && Valid(lim, p, frameLen) && 0 < |frame| <= frameLen
    requires p.stored < lim.storeFrames
    ensures Valid(lim, q, frameLen)
    ensures q.stored == p.stored + 1 && q.firstCycle == p.firstCycle
    ensures q.buf.Content() == p.buf.Content() + frame
    ensures q.buf.data[q.buf.used..] == p.buf.data[q.buf.used..]
  {
    assert p.buf.used + |frame| <= p.buf.Capacity() by {
      StoreRoom(p.stored, p.buf.used, frameLen, lim.storeFrames, |frame|);
    }
    var w := Write(p.buf, frame).0;
    assert w.Content() == p.buf.Content() + frame && w.used == p.buf.used + |frame|;
    assert w.data[w.used..] == p.buf.data[w.used..];
    var q := PreRoll(w, p.stored + 1, p.firstCycle);
    AppendValid(lim, p, q, frameLen, |frame|);
    q
  }

  /** Empties a full store; its bytes stay and it leaves its first cycle. */
  function Restart(lim: Limits, p: PreRoll, frameLen: nat): (q: PreRoll)
    requires lim.Valid() && Valid(lim, p, frameLen)
    ensures Valid(lim, q, frameLen)
    ensures q.stored == 0 && !q.firstCycle && q.buf.Content() == [] && q.buf.data == p.buf.data
  {
    PreRoll(Zero(p.buf), 0, false)
  }

  /** Stores one frame of at most `frameLen` bytes; a full store is emptied
      first and from then on is no longer in its first cycle. (The write is
      bounded by the frame length, which the caller's guard already
      ensures.) */
  function Store(lim: Limits, p: PreRoll, frameLen: nat, frame: seq<byte>): (q: PreRoll)
    requires lim.Valid() && Valid(lim, p, frameLen) && 0 < |frame| <= frameLen
    ensures Valid(lim, q, frameLen)
    ensures 1 <= q.stored <= lim.storeFrames
    ensures p.stored < lim.storeFrames ==>
              q.stored == p.stored + 1 && q.firstCycle == p.firstCycle
              && q.buf.Content() == p.buf.Content() + frame
    ensures p.stored >= lim.storeFrames ==>
              q.stored == 1 && !q.firstCycle && q.buf.Content() == frame
    ensures q.buf.data[q.buf.used..] == p.buf.data[q.buf.used..]
  {
    if p.stored >= lim.storeFrames then Append(lim, Restart(lim, p, frameLen), frameLen, frame)
    else Append(lim, p, frameLen, frame)
  }

  /** How many frames are recovered at speech onset: the recovery window,
      unless fewer frames were stored and the store is in its first cycle. */
  function RecoveryFrames(lim: Limits, p: PreRoll): (n: nat)
    requires lim.Valid()
    ensures n <= lim.storeFrames
    ensures p.stored <= lim.storeFrames ==> n <= if p.stored >= lim.recoveryFrames then p.stored else lim.recoveryFrames
    ensures n == lim.recoveryFrames || (n == p.stored < lim.recoveryFrames && p.firstCycle)
    ensures p.stored < lim.recoveryFrames && p.firstCycle ==> n == p.stored
    ensures p.stored >= lim.recoveryFrames || !p.firstCycle ==> n == lim.recoveryFrames
  {
    if p.stored >= lim.recoveryFrames then lim.recoveryFrames
    else if p.firstCycle then p.stored
    else lim.recoveryFrames
  }

  /** The last `n` bytes of the physical buffer, live or stale. */
  function PhysicalTail(b: ByteBuffer, n: nat): (t: seq<byte>)
    ensures n <= |b.data| ==> t == b.data[|b.data| - n..]
  {
    if n <= |b.data| then b.data[|b.data| - n..] else b.data
  }

  /** The number of bytes the recovery window covers; never more than the
      buffer holds physically. */
  function RecoveryLen(lim: Limits, p: PreRoll, frameLen: nat): (n: nat)
    requires lim.Valid() && Valid(lim, p, frameLen)
    ensures n == RecoveryFrames(lim, p) * frameLen
    ensures n <= p.buf.Capacity()
  {
    MulMono(RecoveryFrames(lim, p), lim.storeFrames, frameLen);
    RecoveryFrames(lim, p) * frameLen
  }

  /** The chunk queued at speech onset: the last `RecoveryLen` bytes stored
      followed by the current frame. When fewer bytes are live than that, the
      missing head is read from the physical end of the buffer. None when
      nothing is live. */
  function RecoveryChunk(lim: Limits, p: PreRoll, frameLen: nat, frame: seq<byte>): (c: Option<seq<byte>>)
    requires lim.Valid() && Valid(lim, p, frameLen)
    ensures c.None? <==> p.buf.used == 0
    ensures c.Some? ==> |c.value| == RecoveryLen(lim, p, frameLen) + |frame|
    ensures c.Some? ==> c.value[RecoveryLen(lim, p, frameLen)..] == frame
    ensures c.Some? && p.buf.used >= RecoveryLen(lim, p, frameLen) ==>
              c.value[..RecoveryLen(lim, p, frameLen)] == p.buf.Content()[p.buf.used - RecoveryLen(lim, p, frameLen)..]
    ensures c.Some? && p.buf.used < RecoveryLen(lim, p, frameLen) ==>
              c.value == PhysicalTail(p.buf, RecoveryLen(lim, p, frameLen) - p.buf.used) + p.buf.Content() + frame
  {
    var vblen := p.buf.used;
    if vblen == 0 then None
    else
      var rlen := RecoveryLen(lim, p, frameLen);
      if vblen < rlen then
        var hdr := rlen - vblen;
        var hdrOfs := p.buf.Capacity() - hdr;
        Some(p.buf.data[hdrOfs..] + p.buf.data[..vblen] + frame)
      else
        Some(p.buf.data[vblen - rlen..vblen] + frame)
  }

  /** After a recovery the store is emptied; its stale bytes and its cycle
      flag are kept. */
  function Drop(lim: Limits, p: PreRoll, frameLen: nat): (q: PreRoll)
    requires lim.Valid() && Valid(lim, p, frameLen)
    ensures Valid(lim, q, frameLen)
    ensures q.stored == 0 && q.buf.Content() == [] && q.buf.data == p.buf.data
    ensures q.firstCycle == p.firstCycle
  {
    PreRoll(Zero(p.buf), 0, p.firstCycle)
  }

  /** Stores a run of frames, oldest first. */
  function StoreAll(lim: Limits, p: PreRoll, frameLen: nat, fs: seq<seq<byte>>): (q: PreRoll)
    requires lim.Valid() && Valid(lim, p, frameLen)
    requires forall i :: 0 <= i < |fs| ==> 0 < |fs[i]| <= frameLen
    ensures Valid(lim, q, frameLen)
    ensures |fs| > 0 ==> q.stored >= 1
    decreases |fs|
  {
    if |fs| == 0 then p
    else Store(lim, StoreAll(lim, p, frameLen, fs[..|fs| - 1]), frameLen, fs[|fs| - 1])
  }

  /** The number of bytes in `frames` whole frames. */
  function Bytes(frames: nat, frameLen: nat): nat {
    frames * frameLen
  }

  function Min(a: nat, b: nat): nat {
    if a <= b then a else b
  }
}

=== FILE: preroll_proofs.dfy ===
/** What the pre-roll store recovers at speech onset after a run of whole
    frames: the last frames in the order they were heard, with the frame that
    triggered onset appearing twice (it was stored before the onset was
    detected and is appended again), and, in a later cycle, the stale bytes a
    previous fill left behind. */
module PreRollProofs {
  import opened Common
  import opened Buffers
  import opened Config
  import opened PreRoll

  /** The layout of the store after `fs` (whole frames of `fl` bytes) were
      stored into the empty store `p`: the live bytes are the frames stored
      since the store was last emptied, and once the store has been full the
      bytes after them are the remaining frames of the previous fill. */
  ghost predicate Shaped(lim: Limits, p: PreRoll, fl: nat, fs: seq<seq<byte>>, q: PreRoll)
    requires lim.Valid()
  {
    var k, m, S := |fs|, q.stored, lim.storeFrames;
    && 1 <= m <= k && m <= S
    && q.buf.Valid() && q.buf.used == m * fl
    && |q.buf.data| == |p.buf.data| == S * fl
    && q.firstCycle == (p.firstCycle && k <= S)
    && (k <= S ==> m == k && q.buf.data[m * fl..] == p.buf.data[m * fl..])
    && q.buf.Content() == Flatten(fs[k - m..])
    && (k >= S ==> q.buf.data[m * fl..] == Flatten(fs[k - S..k - m]))
  }

  lemma UniformSlice(fs: seq<seq<byte>>, fl: nat, i: nat, j: nat)
    requires Uniform(fs, fl) && i <= j <= |fs|
    ensures Uniform(fs[i..j], fl)
  {
    forall t | 0 <= t < j - i
      ensures |fs[i..j][t]| == fl
    {
      assert fs[i..j][t] == fs[i + t];
    }
  }

  lemma ShapeFirst(lim: Limits, p: PreRoll, fl: nat, f: seq<byte>)
    requires lim.Valid() && fl > 0 && Valid(lim, p, fl) && p.stored == 0 && |f| == fl
    ensures Shaped(lim, p, fl, [f], Store(lim, p, fl, f))
  {
    var q := Store(lim, p, fl, f);
    var S := lim.storeFrames;
    FlattenOne(f);
    assert [f][0..] == [f];
    assert q.buf.used == fl;
    if 1 >= S {
      assert [f][1 - S..0] == [];
      assert q.buf.data[fl..] == [];
    }
  }

  /** Storing a frame while the store still has room. */
  lemma ShapeGrow(lim: Limits, p: PreRoll, fl: nat, fs: seq<seq<byte>>, q': PreRoll)
    requires lim.Valid() && fl > 0 && Valid(lim, p, fl) && p.stored == 0
    requires |fs| >= 2 && Uniform(fs, fl)
    requires Valid(lim, q', fl) && Shaped(lim, p, fl, fs[..|fs| - 1], q')
    requires q'.stored < lim.storeFrames
    ensures Shaped(lim, p, fl, fs, Store(lim, q', fl, fs[|fs| - 1]))
  {
    if |fs| <= lim.storeFrames {
      ShapeGrowEarly(lim, p, fl, fs, q');
    } else {
      ShapeGrowLate(lim, p, fl, fs, q');
    }
  }

  /** In the first cycle the k-th frame lands in slot k, over bytes never
      written. */
  lemma ShapeGrowEarly(lim: Limits, p: PreRoll, fl: nat, fs: seq<seq<byte>>, q': PreRoll)
    requires lim.Valid() && fl > 0 && Valid(lim, p, fl) && p.stored == 0
    requires |fs| >= 2 && Uniform(fs, fl)
    requires Valid(lim, q', fl) && Shaped(lim, p, fl, fs[..|fs| - 1], q')
    requires q'.stored < lim.storeFrames
    requires |fs| <= lim.storeFrames
    ensures Shaped(lim, p, fl, fs, Store(lim, q', fl, fs[|fs| - 1]))
  {
    var q := Store(lim, q', fl, fs[|fs| - 1]);
    MulSucc(q'.stored, fl);
    GrowContent(fs, q'.buf.Content(), q.buf.Content(), q'.stored);
    GrowUntouched(p.buf.data, q'.buf.data, q.buf.data, q'.stored * fl, fl);
    if |fs| == lim.storeFrames {
      assert fs[|fs| - lim.storeFrames..|fs| - q.stored] == [];
      assert q.buf.data[q.buf.used..] == [];
    }
  }

  /** In a later cycle the frame is appended before the rest of the previous
      fill, which loses its oldest frame. */
  lemma ShapeGrowLate(lim: Limits, p: PreRoll, fl: nat, fs: seq<seq<byte>>, q': PreRoll)
    requires lim.Valid() && fl > 0 && Valid(lim, p, fl) && p.stored == 0
    requires |fs| >= 2 && Uniform(fs, fl)
    requires Valid(lim, q', fl) && Shaped(lim, p, fl, fs[..|fs| - 1], q')
    requires q'.stored < lim.storeFrames
    requires |fs| > lim.storeFrames
    ensures Shaped(lim, p, fl, fs, Store(lim, q', fl, fs[|fs| - 1]))
  {
    var q := Store(lim, q', fl, fs[|fs| - 1]);
    MulSucc(q'.stored, fl);
    GrowContent(fs, q'.buf.Content(), q.buf.Content(), q'.stored);
    ShapeGrowTail(lim, fl, fs, q', q);
  }

  /** The live bytes after appending the newest frame. */
  lemma GrowContent(fs: seq<seq<byte>>, before: seq<byte>, after: seq<byte>, m': nat)
    requires |fs| >= 2 && m' + 1 <= |fs|
    requires before == Flatten(fs[..|fs| - 1][|fs| - 1 - m'..])
    requires after == before + fs[|fs| - 1]
    ensures after == Flatten(fs[|fs| - (m' + 1)..])
  {
    var w := fs[|fs| - (m' + 1)..];
    assert w[..|w| - 1] == fs[..|fs| - 1][|fs| - 1 - m'..];
    assert Flatten(w) == Flatten(w[..|w| - 1]) + fs[|fs| - 1];
  }

  /** Bytes past a write of `fl` bytes at offset `o` over untouched bytes
      stay as they were originally. */
  lemma GrowUntouched(orig: seq<byte>, mid: seq<byte>, last: seq<byte>, o: nat, fl: nat)
    requires |orig| == |mid| == |last| && o + fl <= |orig|
    requires mid[o..] == orig[o..]
    requires last[o + fl..] == mid[o + fl..]
    ensures last[o + fl..] == orig[o + fl..]
  {
    assert mid[o + fl..] == mid[o..][fl..];
    assert orig[o + fl..] == orig[o..][fl..];
  }

  lemma ShapeGrowTail(lim: Limits, fl: nat, fs: seq<seq<byte>>, q': PreRoll, q: PreRoll)
    requires lim.Valid() && fl > 0 && |fs| - 1 >= lim.storeFrames && Uniform(fs, fl)
    requires q'.buf.Valid() && q.buf.Valid() && |q.buf.data| == |q'.buf.data|
    requires q'.stored < lim.storeFrames && q'.buf.used == q'.stored * fl
    requires q.buf.used == q'.buf.used + fl
    requires q.buf.data[q.buf.used..] == q'.buf.data[q.buf.used..]
    requires q'.buf.data[q'.buf.used..] == Flatten(fs[..|fs| - 1][|fs| - 1 - lim.storeFrames..|fs| - 1 - q'.stored])
    ensures q.buf.data[q.buf.used..] == Flatten(fs[|fs| - lim.storeFrames..|fs| - (q'.stored + 1)])
  {
    var k, S, m' := |fs|, lim.storeFrames, q'.stored;
    var xs := fs[..k - 1][k - 1 - S..k - 1 - m'];
    assert xs == fs[k - 1 - S..k - 1 - m'];
    UniformSlice(fs, fl, k - 1 - S, k - 1 - m');
    FlattenSlice(xs, fl, 1, S - m');
    FlattenLength(xs, fl);
    MulSucc(0, fl);
    assert xs[1..S - m'] == fs[k - S..k - (m' + 1)];
    assert q'.buf.data[q.buf.used..] == q'.buf.data[q'.buf.used..][fl..];
  }

  /** Storing a frame into a full store: it is emptied and the frame lands at
      the start, leaving the rest of the previous fill behind it. */
  lemma ShapeWrap(lim: Limits, p: PreRoll, fl: nat, fs: seq<seq<byte>>, q': PreRoll)
    requires lim.Valid() && fl > 0 && Valid(lim, p, fl) && p.stored == 0
    requires |fs| >= 2 && Uniform(fs, fl)
    requires Valid(lim, q', fl) && Shaped(lim, p, fl, fs[..|fs| - 1], q')
    requires q'.stored >= lim.storeFrames
    ensures Shaped(lim, p, fl, fs, Store(lim, q', fl, fs[|fs| - 1]))
  {
    FlattenOne(fs[|fs| - 1]);
    assert fs[|fs| - 1..] == [fs[|fs| - 1]];
    assert q'.buf.data == q'.buf.Content();
    WrapTail(fs, fl, lim.storeFrames, q'.buf.data);
  }

  /** A full store holds the last S frames before the newest; past the first
      frame it holds the S - 1 frames after that one. */
  lemma WrapTail(fs: seq<seq<byte>>, fl: nat, S: nat, data: seq<byte>)
    requires Uniform(fs, fl) && 1 <= S < |fs|
    requires data == Flatten(fs[..|fs| - 1][|fs| - 1 - S..])
    ensures fl <= |data| && data[fl..] == Flatten(fs[|fs| - S..|fs| - 1])
  {
    var xs := fs[..|fs| - 1][|fs| - 1 - S..];
    assert xs == fs[|fs| - 1 - S..|fs| - 1];
    UniformSlice(fs, fl, |fs| - 1 - S, |fs| - 1);
    FlattenSlice(xs, fl, 1, S);
    FlattenLength(xs, fl);
    MulSucc(0, fl);
    assert xs[1..S] == fs[|fs| - S..|fs| - 1];
  }

  lemma {:induction false} StoreAllShape(lim: Limits, p: PreRoll, fl: nat, fs: seq<seq<byte>>)
    requires lim.Valid() && fl > 0 && Valid(lim, p, fl) && p.stored == 0
    requires |fs| >= 1 && Uniform(fs, fl)
    ensures Shaped(lim, p, fl, fs, StoreAll(lim, p, fl, fs))
    decreases |fs|
  {
    if |fs| == 1 {
      assert fs == [fs[0]] && fs[..|fs| - 1] == [];
      ShapeFirst(lim, p, fl, fs[0]);
    } else {
      UniformSlice(fs, fl, 0, |fs| - 1);
      assert fs[0..|fs| - 1] == fs[..|fs| - 1];
      StoreAllShape(lim, p, fl, fs[..|fs| - 1]);
      var q' := StoreAll(lim, p, fl, fs[..|fs| - 1]);
      if q'.stored < lim.storeFrames {
        ShapeGrow(lim, p, fl, fs, q');
      } else {
        ShapeWrap(lim, p, fl, fs, q');
      }
    }
  }

  lemma WrapOffsets(S: nat, R: nat, m: nat, fl: nat)
    requires m < R <= S
    ensures R * fl - m * fl == (R - m) * fl
    ensures S * fl - (R - m) * fl == m * fl + (S - R) * fl
    ensures m * fl <= R * fl <= S * fl
    ensures fl > 0 ==> m * fl < R * fl
  {
    if fl > 0 {
      MulMono(m + 1, R, fl);
      MulSucc(m, fl);
    }
    FrameOffsets(fl, m, R, S);
    FrameOffsets(fl, S - R, S - m, S);
  }

  /** Onset when at least the recovery window is live: the window is the
      last `r` stored frames. */
  lemma OnsetLinear(lim: Limits, p: PreRoll, fl: nat, fs: seq<seq<byte>>, q: PreRoll)
    requires lim.Valid() && fl > 0 && |fs| >= 1 && Uniform(fs, fl)
    requires Valid(lim, q, fl) && Shaped(lim, p, fl, fs, q)
    requires RecoveryFrames(lim, q) <= q.stored
    ensures RecoveryChunk(lim, q, fl, fs[|fs| - 1])
            == Some(Flatten(fs[|fs| - RecoveryFrames(lim, q)..]) + fs[|fs| - 1])
  {
    MulMono(1, q.stored, fl);
    LastFrames(fs, fl, q.stored, RecoveryFrames(lim, q), q.buf.Content());
    var c := RecoveryChunk(lim, q, fl, fs[|fs| - 1]);
    assert c.value == c.value[..RecoveryLen(lim, q, fl)] + c.value[RecoveryLen(lim, q, fl)..];
  }

  /** The last r of m uniform frames are the last r * fl bytes of their
      concatenation. */
  lemma LastFrames(fs: seq<seq<byte>>, fl: nat, m: nat, r: nat, content: seq<byte>)
    requires Uniform(fs, fl) && r <= m <= |fs|
    requires content == Flatten(fs[|fs| - m..])
    ensures |content| == m * fl && r * fl <= m * fl
    ensures content[m * fl - r * fl..] == Flatten(fs[|fs| - r..])
  {
    var live := fs[|fs| - m..];
    UniformSlice(fs, fl, |fs| - m, |fs|);
    FlattenSlice(live, fl, m - r, m);
    FlattenLength(live, fl);
    FrameOffsets(fl, m - r, m, m);
    assert live[m - r..m] == fs[|fs| - r..];
  }

  /** Onset in a later cycle with fewer than R frames live: the missing head
      is the end of the previous fill. */
  lemma OnsetWrapped(lim: Limits, p: PreRoll, fl: nat, fs: seq<seq<byte>>, q: PreRoll)
    requires lim.Valid() && fl > 0 && |fs| > lim.storeFrames && Uniform(fs, fl)
    requires Valid(lim, q, fl) && Shaped(lim, p, fl, fs, q)
    requires q.stored < lim.recoveryFrames && !q.firstCycle
    ensures RecoveryChunk(lim, q, fl, fs[|fs| - 1])
            == Some(Flatten(fs[|fs| - lim.recoveryFrames..]) + fs[|fs| - 1])
  {
    var k, m, S, R := |fs|, q.stored, lim.storeFrames, lim.recoveryFrames;
    var t := fs[k - 1];
    var live := fs[k - m..];
    var head := Flatten(fs[k - R..k - m]);
    var rlen := RecoveryLen(lim, q, fl);
    assert RecoveryFrames(lim, q) == R;
    assert q.buf.used == m * fl && rlen == R * fl;
    assert 0 < q.buf.used < rlen by {
      MulMono(1, m, fl);
      WrapOffsets(S, R, m, fl);
    }
    assert PhysicalTail(q.buf, rlen - q.buf.used) == head by {
      var tail := q.buf.data[m * fl..];
      assert tail == Flatten(fs[k - S..k - m]);
      StaleHead(fs, fl, k, m, S, R, tail);
      WrapOffsets(S, R, m, fl);
      WrappedHead(q.buf.data, m * fl, (S - R) * fl, tail, head);
    }
    assert q.buf.Content() == Flatten(live);
    assert head + Flatten(live) == Flatten(fs[k - R..]) by {
      assert fs[k - R..] == fs[k - R..k - m] + live;
      FlattenAppend(fs[k - R..k - m], live);
    }
  }

  /** The bytes after the live ones hold the rest of the previous fill; its
      last R - m frames start (S - R) frames into them. */
  lemma StaleHead(fs: seq<seq<byte>>, fl: nat, k: nat, m: nat, S: nat, R: nat, tail: seq<byte>)
    requires Uniform(fs, fl) && m < R <= S <= k == |fs|
    requires tail == Flatten(fs[k - S..k - m])
    ensures (S - R) * fl <= |tail|
    ensures tail[(S - R) * fl..] == Flatten(fs[k - R..k - m])
  {
    var ys := fs[k - S..k - m];
    UniformSlice(fs, fl, k - S, k - m);
    FlattenSlice(ys, fl, S - R, S - m);
    FlattenLength(ys, fl);
    SliceOfSlice(fs, k - S, k - m, S - R, S - m);
    assert k - S + (S - R) == k - R && k - S + (S - m) == k - m;
    assert tail[(S - R) * fl..] == tail[(S - R) * fl..(S - m) * fl];
  }

  /** Reading from offset a + h is reading the tail that starts at `a` from
      offset h. */
  lemma WrappedHead(data: seq<byte>, a: nat, h: nat, tail: seq<byte>, head: seq<byte>)
    requires a <= |data| && data[a..] == tail && h <= |tail| && tail[h..] == head
    ensures a + h <= |data| && PhysicalTail(ByteBuffer(data, 0), |data| - (a + h)) == head
  {
    assert data[a + h..] == data[a..][h..];
  }

  /** Speech onset after the whole frames `fs` (the last being the trigger)
      were stored into an empty store: the chunk is the last min(k, R) frames
      in the order heard, then the trigger frame again. It holds in the first
      cycle, and in any cycle once at least R frames were stored. */
  lemma OnsetRecovery(lim: Limits, p: PreRoll, fl: nat, fs: seq<seq<byte>>)
    requires lim.Valid() && fl > 0 && Valid(lim, p, fl) && p.stored == 0
    requires |fs| >= 1 && Uniform(fs, fl)
    requires p.firstCycle || |fs| >= lim.recoveryFrames
    ensures RecoveryChunk(lim, StoreAll(lim, p, fl, fs), fl, fs[|fs| - 1])
            == Some(Flatten(fs[|fs| - Min(|fs|, lim.recoveryFrames)..]) + fs[|fs| - 1])
  {
    StoreAllShape(lim, p, fl, fs);
    OnsetFromShape(lim, p, fl, fs, StoreAll(lim, p, fl, fs));
  }

  /** The onset chunk of any store shaped by `fs`. */
  lemma OnsetFromShape(lim: Limits, p: PreRoll, fl: nat, fs: seq<seq<byte>>, q: PreRoll)
    requires lim.Valid() && fl > 0 && |fs| >= 1 && Uniform(fs, fl)
    requires Valid(lim, q, fl) && Shaped(lim, p, fl, fs, q)
    requires p.firstCycle || |fs| >= lim.recoveryFrames
    ensures RecoveryChunk(lim, q, fl, fs[|fs| - 1])
            == Some(Flatten(fs[|fs| - Min(|fs|, lim.recoveryFrames)..]) + fs[|fs| - 1])
  {
    if q.firstCycle || q.stored >= lim.recoveryFrames {
      assert RecoveryFrames(lim, q) == Min(|fs|, lim.recoveryFrames);
      OnsetLinear(lim, p, fl, fs, q);
    } else {
      OnsetWrapped(lim, p, fl, fs, q);
    }
  }

  /** The trigger frame is recovered twice: the chunk ends with two copies of
      it, since it was stored into the pre-roll before onset was reported. */
  lemma TriggerFrameTwice(lim: Limits, p: PreRoll, fl: nat, fs: seq<seq<byte>>)
    requires lim.Valid() && fl > 0 && Valid(lim, p, fl) && p.stored == 0
    requires |fs| >= 1 && Uniform(fs, fl)
    requires p.firstCycle || |fs| >= lim.recoveryFrames
    ensures var c := RecoveryChunk(lim, StoreAll(lim, p, fl, fs), fl, fs[|fs| - 1]);
            c.Some? && |c.value| >= 2 * fl && c.value[|c.value| - 2 * fl..] == fs[|fs| - 1] + fs[|fs| - 1]
  {
    assert |fs[|fs| - 1]| == fl;
    OnsetRecovery(lim, p, fl, fs);
    DoubledChunk(RecoveryChunk(lim, StoreAll(lim, p, fl, fs), fl, fs[|fs| - 1]), fs, Min(|fs|, lim.recoveryFrames), fl);
  }

  lemma DoubledChunk(c: Option<seq<byte>>, fs: seq<seq<byte>>, n: nat, fl: nat)
    requires 1 <= n <= |fs| && |fs[|fs| - 1]| == fl
    requires c == Some(Flatten(fs[|fs| - n..]) + fs[|fs| - 1])
    ensures c.Some? && |c.value| >= 2 * fl && c.value[|c.value| - 2 * fl..] == fs[|fs| - 1] + fs[|fs| - 1]
  {
    DoubledLast(fs, n, fl);
  }

  /** The last n frames followed by the last frame again end with that
      frame twice. */
  lemma DoubledLast(fs: seq<seq<byte>>, n: nat, fl: nat)
    requires 1 <= n <= |fs| && |fs[|fs| - 1]| == fl
    ensures var c := Flatten(fs[|fs| - n..]) + fs[|fs| - 1];
            |c| >= 2 * fl && c[|c| - 2 * fl..] == fs[|fs| - 1] + fs[|fs| - 1]
  {
    var k := |fs|;
    var w := fs[k - n..];
    assert w[..|w| - 1] == fs[k - n..k - 1];
    assert Flatten(w) == Flatten(fs[k - n..k - 1]) + fs[k - 1];
    DoubledTail(Flatten(fs[k - n..k - 1]), fs[k - 1]);
  }

  lemma DoubledTail(pre: seq<byte>, f: seq<byte>)
    ensures |pre + f + f| >= 2 * |f|
    ensures (pre + f + f)[|pre + f + f| - 2 * |f|..] == f + f
  {
    var c := pre + f + f;
    assert |c| - 2 * |f| == |pre|;
  }

  /** In a later cycle, an onset after fewer than R frames splices in stale
      bytes: the chunk starts with the physical end of the buffer as it was
      before these frames, i.e. audio from an earlier fill. */
  lemma {:induction false} StaleSplice(lim: Limits, p: PreRoll, fl: nat, fs: seq<seq<byte>>)
    requires lim.Valid() && fl > 0 && Valid(lim, p, fl) && p.stored == 0
    requires |fs| >= 1 && Uniform(fs, fl)
    requires !p.firstCycle && |fs| < lim.recoveryFrames
    ensures RecoveryChunk(lim, StoreAll(lim, p, fl, fs), fl, fs[|fs| - 1])
            == Some(PhysicalTail(p.buf, Bytes(lim.recoveryFrames - |fs|, fl)) + Flatten(fs) + fs[|fs| - 1])
  {
    var k, S, R := |fs|, lim.storeFrames, lim.recoveryFrames;
    StoreAllShape(lim, p, fl, fs);
    var q := StoreAll(lim, p, fl, fs);
    assert fs[0..] == fs;
    StaleSpliceAt(lim, p, fl, fs, q);
  }

  lemma StaleSpliceAt(lim: Limits, p: PreRoll, fl: nat, fs: seq<seq<byte>>, q: PreRoll)
    requires lim.Valid() && fl > 0 && |fs| >= 1 && |fs| < lim.recoveryFrames
    requires Valid(lim, q, fl) && q.stored == |fs| && !q.firstCycle
    requires q.buf.used == |fs| * fl && q.buf.Content() == Flatten(fs)
    requires |q.buf.data| == |p.buf.data| && q.buf.data[|fs| * fl..] == p.buf.data[|fs| * fl..]
    ensures RecoveryChunk(lim, q, fl, fs[|fs| - 1])
            == Some(PhysicalTail(p.buf, Bytes(lim.recoveryFrames - |fs|, fl)) + Flatten(fs) + fs[|fs| - 1])
  {
    var k, S, R := |fs|, lim.storeFrames, lim.recoveryFrames;
    assert RecoveryFrames(lim, q) == R;
    var h := (R - k) * fl;
    assert RecoveryLen(lim, q, fl) - q.buf.used == h && 0 < q.buf.used < RecoveryLen(lim, q, fl) by {
      WrapOffsets(S, R, k, fl);
      MulMono(1, k, fl);
    }
    assert PhysicalTail(q.buf, h) == PhysicalTail(p.buf, h) by {
      WrapOffsets(S, R, k, fl);
      SameTail(q.buf, p.buf, k * fl, h);
    }
  }

  /** Two buffers of one size that agree from `a` on agree on any tail that
      starts there or later. */
  lemma SameTail(x: ByteBuffer, y: ByteBuffer, a: nat, h: nat)
    requires |x.data| == |y.data| && a + h <= |x.data|
    requires x.data[a..] == y.data[a..]
    ensures PhysicalTail(x, h) == PhysicalTail(y, h)
  {
    var n := |x.data|;
    assert x.data[n - h..] == x.data[a..][n - h - a..];
    assert y.data[n - h..] == y.data[a..][n - h - a..];
  }
}

=== FILE: results.dfy ===
/** How a transcription service reply turns into a queued result, and how
    the host polls for and fetches results. */
module Results {
  import opened Common
  import opened Buffers
  import opened Config
  import opened Sessions

  /** A service reply as the worker sees it. `Parsed` is a reply whose body
      is a JSON object: whether it has an "error" member, and its "text"
      member when that member is present. */
  datatype Response =
    | HttpFailure
    | EmptyBody
    | Unparsable
    | Parsed(hasError: bool, text: Option<string>)

  /** The transcript a reply carries, if any. An "error" member wins over a
      "text" member; failures, empty bodies and unparsable bodies carry
      none. */
  function Transcript(resp: Response): (t: Option<string>)
    ensures resp.Parsed? && resp.hasError ==> t.None?
    ensures t.Some? <==> resp.Parsed? && !resp.hasError && resp.text.Some?
    ensures t.Some? ==> t == resp.text
  {
    match resp
    case Parsed(hasError, text) => if hasError then None else text
    case _ => None
  }

  /** Handles one reply: a transcript is pushed onto the text queue and
      counted, unless the queue is full, in which case it is discarded. */
  function Publish(lim: Limits, s: Session, resp: Response): (t: Session)
    requires s.text.Valid()
    ensures t.text.Valid() && t.text.capacity == s.text.capacity
    ensures Valid(lim, s) ==> Valid(lim, t)
    ensures t == s.(text := t.text, results := t.results)
    ensures Transcript(resp).Some? && |s.text.items| < s.text.capacity ==>
              t.text.items == s.text.items + [Transcript(resp).value] && t.results == s.results + 1
    ensures Transcript(resp).None? || |s.text.items| >= s.text.capacity ==> t == s
  {
    match Transcript(resp)
    case Some(txt) =>
      var (pushed, q) := TryPush(s.text, txt);
      if pushed then s.(text := q, results := s.results + 1) else s
    case None => s
  }

  /** The text queue is well formed and the pending counter matches it. */
  predicate Counted(s: Session) {
    s.text.Valid() && s.results == |s.text.items|
  }

  /** Polling: success while the counter says results are pending. */
  function CheckResults(s: Session): (st: Status)
    ensures st == Success || st == False
    ensures st == Success <==> s.results > 0
  {
    if s.results > 0 then Success else False
  }

  /** What a fetch returns: the status, the result string when there is one,
      and the session afterwards. */
  datatype Fetched = Fetched(status: Status, result: Option<string>, session: Session)

  /** The string a fetched entry yields: an empty transcript yields none. */
  function Delivered(x: string): Option<string> {
    if |x| > 0 then Some(x) else None
  }

  /** The counter decrement that never goes below zero. */
  function Uncount(n: nat): (m: nat)
    ensures n - 1 <= m <= n
    ensures m == n <==> n == 0
  {
    if n > 0 then n - 1 else 0
  }

  /** Fetches the oldest result. Popping an entry always uncounts it (never
      below zero), but only a non-empty transcript is returned, with
      success. */
  function GetResults(lim: Limits, s: Session): (r: Fetched)
    requires s.text.Valid()
    ensures Valid(lim, s) ==> Valid(lim, r.session)
    ensures Counted(s) ==> Counted(r.session)
    ensures r.status == Success <==> r.result.Some?
    ensures s.text.items == [] ==> r == Fetched(False, None, s)
    ensures s.text.items != [] ==>
              && r.result == Delivered(s.text.items[0])
              && r.session == s.(text := s.text.(items := s.text.items[1..]), results := Uncount(s.results))
  {
    match TryPop(s.text)
    case None => Fetched(False, None, s)
    case Some((txt, q)) =>
      var s1 := s.(text := q, results := Uncount(s.results));
      if |txt| > 0 then Fetched(Success, Some(txt), s1) else Fetched(False, None, s1)
  }

  /** Polling agrees with the text queue: results are reported pending
      exactly when a fetch has an entry to pop. */
  lemma CheckMeansQueued(lim: Limits, s: Session)
    requires Valid(lim, s)
    ensures CheckResults(s) == Success <==> s.text.items != []
    ensures CheckResults(s) == False <==> GetResults(lim, s).session == s
  {
    if s.text.items != [] {
      assert |GetResults(lim, s).session.text.items| < |s.text.items|;
    }
  }

  /** Fetches `n` times, returning what each fetch yielded. */
  function FetchN(lim: Limits, s: Session, n: nat): (r: (seq<Option<string>>, Session))
    requires Counted(s) && n <= |s.text.items|
    ensures Counted(r.1) && |r.0| == n
    ensures r.1.text.items == s.text.items[n..] && r.1.results == s.results - n
    ensures forall i :: 0 <= i < n ==> r.0[i] == Delivered(s.text.items[i])
    ensures r.1 == s.(text := r.1.text, results := r.1.results)
    decreases n
  {
    if n == 0 then ([], s)
    else
      var f := GetResults(lim, s);
      var rest := FetchN(lim, f.session, n - 1);
      ([f.result] + rest.0, rest.1)
  }

  /** Publishes a run of transcripts, oldest first. */
  function PublishAll(lim: Limits, s: Session, ts: seq<string>): (t: Session)
    requires Counted(s)
    ensures Counted(t)
    decreases |ts|
  {
    if |ts| == 0 then s
    else Publish(lim, PublishAll(lim, s, ts[..|ts| - 1]), Parsed(false, Some(ts[|ts| - 1])))
  }

  /** While the text queue has room, publishing appends every transcript. */
  lemma {:induction false} PublishAllAppends(lim: Limits, s: Session, ts: seq<string>)
    requires Counted(s) && |s.text.items| + |ts| <= s.text.capacity
    ensures PublishAll(lim, s, ts).text.items == s.text.items + ts
    ensures PublishAll(lim, s, ts) == s.(text := s.text.(items := s.text.items + ts), results := s.results + |ts|)
    decreases |ts|
  {
    if |ts| > 0 {
      var ts' := ts[..|ts| - 1];
      PublishAllAppends(lim, s, ts');
      assert s.text.items + ts' + [ts[|ts| - 1]] == s.text.items + ts;
    }
  }

  /** What fetching a whole queue made of `skip` older entries and then
      the transcripts `ts` yields: one result per entry, those after the
      first `skip` being `ts`'s in turn (an empty transcript yields nothing),
      and nothing left pending. */
  predicate DeliversInOrder(r: (seq<Option<string>>, Session), skip: nat, ts: seq<string>) {
    && |r.0| == skip + |ts|
    && (forall i :: 0 <= i < |ts| ==> r.0[skip + i] == Delivered(ts[i]))
    && r.1.text.items == [] && CheckResults(r.1) == False
  }

  /** Results come out in the order the replies arrived: publishing `ts`
      into a session with room, then fetching everything, first yields the
      entries already queued and then each transcript of `ts` in turn,
      leaving nothing pending. */
  lemma FifoDelivery(lim: Limits, s: Session, ts: seq<string>)
    requires Counted(s) && |s.text.items| + |ts| <= s.text.capacity
    ensures var p := PublishAll(lim, s, ts);
            DeliversInOrder(FetchN(lim, p, |p.text.items|), |s.text.items|, ts)
  {
    PublishAllAppends(lim, s, ts);
    FetchAllOf(lim, PublishAll(lim, s, ts), s.text.items, ts);
  }

  /** Fetching everything from a queue holding `pre` then `ts` delivers `ts`
      in order after the first `|pre|` results. */
  lemma FetchAllOf(lim: Limits, p: Session, pre: seq<string>, ts: seq<string>)
    requires Counted(p) && p.text.items == pre + ts
    ensures DeliversInOrder(FetchN(lim, p, |p.text.items|), |pre|, ts)
  {
    var r := FetchN(lim, p, |p.text.items|);
    forall i | 0 <= i < |ts|
      ensures r.0[|pre| + i] == Delivered(ts[i])
    {
      assert p.text.items[|pre| + i] == ts[i];
    }
    assert r.1.results == 0;
  }

  /** Replies without a usable transcript leave the session untouched: a
      failed request, an empty or unparsable body, an error reply, and a
      reply with no "text" member. */
  lemma NoTranscriptNoResult(lim: Limits, s: Session, resp: Response)
    requires Valid(lim, s)
    requires resp.HttpFailure? || resp.EmptyBody? || resp.Unparsable?
             || (resp.Parsed? && (resp.hasError || resp.text.None?))
    ensures Publish(lim, s, resp) == s
  {
  }
}

=== FILE: session.dfy ===
/** The per-call recognition session: its record, its invariant, and the small
    operations around it (open, pause, resume, text options). */
module Sessions {
  import opened Common
  import opened Buffers
  import opened Config
  import PR = PreRoll

  /** The states the voice-activity detector reports; `VadNone` is also the
      state a new session starts in. */
  datatype VadState = VadNone | StartTalking | Talking | StopTalking | VadError

  type Chunk = seq<byte>

  datatype Session = Session(
    samplerate: nat,
    channels: nat,
    frameLen: nat,             // latched from the first frame; 0 until then
    vadBufferSize: nat,        // pre-roll capacity in bytes; 0 when there is no pre-roll
    chunkBufferSize: nat,      // utterance capacity in bytes; 0 until the first frame
    preRoll: PR.PreRoll,
    vadState: VadState,        // last onset, talking or silence reported
    audio: Queue<Chunk>,
    text: Queue<string>,
    results: nat,              // transcription results not yet fetched
    closed: bool,
    destroyed: bool,
    abort: bool,
    paused: bool,
    language: Option<string>,
    model: Option<string>,
    sessionUuid: Option<string>)

  /** The session invariant kept by every operation. */
  predicate Valid(lim: Limits, s: Session) {
    && lim.Valid()
    && s.audio.Valid() && s.audio.capacity == lim.queueSize
    && s.text.Valid() && s.text.capacity == lim.queueSize
    && s.results == |s.text.items|
    && (s.frameLen == 0 ==> s.vadBufferSize == 0 && s.chunkBufferSize == 0)
    && s.preRoll.buf.Valid()
    && |s.preRoll.buf.data| == s.vadBufferSize
    && (s.vadBufferSize != 0 ==> s.vadBufferSize == s.frameLen * lim.storeFrames
                                 && PR.Valid(lim, s.preRoll, s.frameLen))
    && (s.vadBufferSize == 0 ==> s.preRoll.stored == 0 && s.preRoll.buf.used == 0)
  }

  /** Replacing the speech queue by another of the same capacity keeps the
      invariant. */
  lemma AudioKeepsValid(lim: Limits, s: Session, q: Queue<Chunk>)
    requires Valid(lim, s) && q.Valid() && q.capacity == s.audio.capacity
    ensures Valid(lim, s.(audio := q))
  {
  }

  /** Recording a detector state keeps the invariant. */
  lemma VadStateKeepsValid(lim: Limits, s: Session, v: VadState)
    requires Valid(lim, s)
    ensures Valid(lim, s.(vadState := v))
  {
  }

  const L16: string := "L16"

  /** Opens a session. Only raw 16-bit linear PCM is accepted; `resources`
      says whether allocating the context, its lock and the detector
      succeeded. A new session is mono, has no frame length yet, no pre-roll,
      empty queues and no results. */
  function Open(lim: Limits, codec: string, samplerate: nat, resources: bool): (r: Result<Session>)
    requires lim.Valid()
    ensures r.Ok? <==> codec == L16 && resources
    ensures codec != L16 ==> r == Err(False)
    ensures codec == L16 && !resources ==> r == Err(GenErr)
    ensures r.Ok? ==> Valid(lim, r.value)
    ensures r.Ok? ==> var s := r.value;
              && s.samplerate == samplerate && s.channels == 1
              && s.frameLen == 0 && s.vadBufferSize == 0 && s.chunkBufferSize == 0
              && s.preRoll.stored == 0 && s.preRoll.firstCycle
              && s.vadState == VadNone && s.audio.items == [] && s.text.items == [] && s.results == 0
              && !s.closed && !s.destroyed && !s.abort && !s.paused
              && s.language.None? && s.model.None? && s.sessionUuid.None?
  {
    if codec != L16 then Err(False)
    else if !resources then Err(GenErr)
    else
      Ok(Session(
        samplerate, 1,
        0, 0, 0,
        PR.PreRoll(Create(0), 0, true),
        VadNone,
        EmptyQueue(lim.queueSize), EmptyQueue(lim.queueSize), 0,
        false, false, false, false,
        None, None, None))
  }

  function Pause(s: Session): (t: Session)
    ensures t.paused
    ensures t.(paused := s.paused) == s
  {
    if !s.paused then s.(paused := true) else s
  }

  function Resume(s: Session): (t: Session)
    ensures !t.paused
    ensures t.(paused := s.paused) == s
  {
    if s.paused then s.(paused := false) else s
  }

  /** ASCII lower-casing, as the C library does in the "C" locale. */
  function Lower(c: char): (l: char)
    ensures !('A' <= l <= 'Z')
    ensures !('A' <= c <= 'Z') ==> l == c
    ensures 'A' <= c <= 'Z' ==> 'a' <= l <= 'z' && l as int - 'a' as int == c as int - 'A' as int
  {
    if 'A' <= c <= 'Z' then (c as int + 32) as char else c
  }

  /** Case-insensitive string equality. */
  predicate SameKey(a: string, b: string) {
    |a| == |b| && forall i :: 0 <= i < |a| ==> Lower(a[i]) == Lower(b[i])
  }

  /** Keys that match without regard to case form classes: the matching is
      reflexive, symmetric and transitive. */
  lemma SameKeyIsEquivalence(a: string, b: string, c: string)
    ensures SameKey(a, a)
    ensures SameKey(a, b) ==> SameKey(b, a)
    ensures SameKey(a, b) && SameKey(b, c) ==> SameKey(a, c)
  {
  }

  /** Sets a text option: `language`, `model` or `session_uuid`, matched
      without regard to case. Unknown keys and absent values change nothing. */
  function TextParam(s: Session, key: string, val: Option<string>): (t: Session)
    ensures val.None? ==> t == s
    ensures val.Some? && SameKey(key, "language") ==> t == s.(language := val)
    ensures val.Some? && SameKey(key, "model") ==> t == s.(model := val)
    ensures val.Some? && SameKey(key, "session_uuid") ==> t == s.(sessionUuid := val)
    ensures !SameKey(key, "language") && !SameKey(key, "model") && !SameKey(key, "session_uuid") ==> t == s
  {
    if SameKey(key, "language") then
      if val.Some? then s.(language := val) else s
    else if SameKey(key, "model") then
      if val.Some? then s.(model := val) else s
    else if SameKey(key, "session_uuid") then
      if val.Some? then s.(sessionUuid := val) else s
    else s
  }

  /** Keys that differ only in letter case set the same option. */
  lemma TextParamIgnoresCase(s: Session, k1: string, k2: string, val: Option<string>)
    requires SameKey(k1, k2)
    ensures TextParam(s, k1, val) == TextParam(s, k2, val)
  {
    forall name | name in ["language", "model", "session_uuid"]
      ensures SameKey(k1, name) <==> SameKey(k2, name)
    {
      if SameKey(k1, name) {
        assert forall i :: 0 <= i < |k2| ==> Lower(k2[i]) == Lower(k1[i]) == Lower(name[i]);
      }
      if SameKey(k2, name) {
        assert forall i :: 0 <= i < |k1| ==> Lower(k1[i]) == Lower(k2[i]) == Lower(name[i]);
      }
    }
  }

  /** Pausing and resuming only toggle the pause flag, whatever the state
      before: resuming a paused session restores it, and each is idempotent. */
  lemma PauseResumeRoundTrip(s: Session)
    ensures !s.paused ==> Resume(Pause(s)) == s
    ensures s.paused ==> Pause(Resume(s)) == s
    ensures Pause(Pause(s)) == Pause(s) && Resume(Resume(s)) == Resume(s)
  {
  }
}
